=== FILE: README.md ===
# bid-alert-bot, modelled in Dafny

The bot collects public bid notices from the Korean public-procurement API
(나라장터, the "nara" API on data.go.kr). It scores each notice against
configured keywords and regions, stores the accepted ones in a SQLite table
under a natural-key uniqueness constraint, and sends a Telegram alert for
every new notice that scores 20 or more. A run summary follows when the run
found at least one new notice.

The model covers that pipeline:

- `Fetch`: paginated retrieval of one category endpoint, with at most 10 pages
  of 100 rows each. It also normalises the response envelope
  (`_parse_response`) and tags every record with its endpoint name.
- `Scoring`: the per-record decision. The exclude veto comes first, then the
  weighted high-intent and facility keyword hits, the region gate, the
  high-intent gate and the notice-number gate.
- `Collector`: the duplicate-checked insertion of accepted records
  (`_score_and_save`) and the run over every configured endpoint (`collect`).
- `Base`: the run summary `CollectResult`, the sync-log upsert, and the
  tolerant coercions `safe_int` / `safe_float`.
- `Schema`: the `bid_notices` and `sync_logs` tables as a `Database` object.
  Its invariant is the schema's constraints: the primary keys, `uq_bid` on
  (endpoint, bid_ntce_no, bid_ntce_ord), and the unique sync-log source.
- `BidAlert`: `check_and_notify` and `format_bid_message`.
- `Json`, `Text` and `Config` are supporting modules. They cover decoded JSON
  values with Python's truthiness and `str()`, `str.lower()` and substring
  search, and the settings and environment records.

Two kinds of outside input become parameters:

- The network becomes two oracles. The page oracle `(url, page) -> Option<Value>`
  gives the decoded body of one page, or `None` when the request or the JSON
  decoding raised. The sender oracle `(token, chatId, message) -> bool` answers
  whether Telegram replied 200.
- The clock becomes a `Timestamp` argument.

The two tables are a `Database` class whose methods update them in place.
Each of the stateful methods, on that class or looping over the fetched
pages, records and alerts, is proved against a specification function:

- `ScoreAndSave` against `SaveAll`;
- `UpdateSyncLog` against `UpsertLog`;
- `FetchEndpoint` against `FetchFrom`;
- `FetchEndpoints` against `FetchAll`;
- `NotifyAll` against `SentCount` and `Alerts`.

The properties the bot relies on are then proved as lemmas about those
functions.

## Behaviour worth knowing

The model follows the code, including where it may surprise a reader:

- `_parse_response` is not total. An envelope whose `response` or `body` is
  not an object makes it raise, and so does a null, boolean or numeric
  document. A list or string document gives no items, unless it contains
  "response" (as an element or a substring), in which case it raises. The
  exception escapes `_fetch_endpoint`, and `collect` counts it as an endpoint
  error.
- A failed HTTP request or an undecodable page is swallowed by
  `_fetch_endpoint`. It just ends that endpoint's pagination, so a timeout is
  not counted as an error (`Collector.AllTimeoutsNoErrors`).
- `items.item` given as a single object is wrapped into a one-element list.
  It does not give an empty list (`Fetch.ParseResponseWrappedItems`).
- The stored score is clamped only from above, `min(score, 100)`. A negative
  weight gives a negative score (`Scoring.NegativeWeightGivesNegativeScore`).
- The settings loader never sets `keywords_exclude`, so the exclude set is
  empty for every loaded configuration. The model keeps the attribute
  optional.
- Keywords and regions are tested with Python's substring test, so an empty
  region string in the settings lets every notice through the region gate, and
  an empty exclude keyword rejects every notice (`Scoring.RegionHit`,
  `Scoring.ExcludeHit`).
- Matched keywords are collected by iterating over a Python `set`, whose order
  is unspecified. They are modelled as a multiset. A keyword that is both
  high-intent and facility counts twice.

## Model

| member | source | states |
|---|---|---|
| `Json.FieldText` | collectors/nara_bids.py:110-112 | `str(item.get(k, "") or "")` is non-empty exactly when the field is present and truthy, and is the string itself for a string field |
| `Json.FieldStr` | collectors/nara_bids.py:143 | `str(item.get(k, default))` is the default for a missing field and the string itself for a string field, even a falsy one |
| `Json.TruthyDisplayNonEmpty` | collectors/nara_bids.py:142-147 | a truthy notice number never renders as the empty string, so every stored row has a non-empty number |
| `Text.Lower` | collectors/nara_bids.py:113 | the lower-cased text keeps the length and every character that is not an upper-case letter, holds no upper-case letter, and is the text itself when it had none |
| `Text.LowerConcat` | collectors/nara_bids.py:113 | lower-casing joined text is joining the lower-cased parts |
| `Text.LowerIdempotent` | collectors/nara_bids.py:95-113 | lower-casing already lower-cased keywords or text changes nothing |
| `Text.ContainsInConcat` | collectors/nara_bids.py:113 | a keyword found in one field is found in the joined text |
| `Text.UpperNeverInLowered` | collectors/nara_bids.py:113-132 | a pattern holding an upper-case letter never occurs in lower-cased text |
| `Text.AbsentCharNotContained` | collectors/nara_bids.py:132 | a pattern holding a character the text lacks does not occur in it |
| `Schema.AppendNoticeKeepsConstraints` | core/db.py:11-41 | appending a notice with a new key under the next id keeps `uq_bid` and the primary key |
| `Schema.NextId` | core/db.py:14 | the id a new row gets is larger than every id in its table, and 1 in an empty table |
| `Schema.MaxOf` | core/db.py:14 | the largest id bounds every id and is one of them; an empty table gives 0 |
| `Schema.StoredFloat` | core/db.py:25 | a NaN budget is stored as NULL and reads back as missing; any other value is stored as it is |
| `Schema.Database.constructor` | core/db.py:61-65 | a freshly created database has both tables empty and satisfies every constraint |
| `Schema.Database.AddNotice` | collectors/nara_bids.py:174 | a notice whose key is new is appended under the next id and the constraints hold afterwards; the duplicate-key branch stands for the storage engine's refusal, which the collector never reaches |
| `Base.UpsertLogSpec` | collectors/base.py:33-50 | after the upsert exactly one row belongs to the source. It holds the run's total, the status "error" iff errors != 0 and the message. An existing row keeps its id, a new source gets one more row, and other rows are unchanged |
| `Base.UpdateSyncLog` | collectors/base.py:33-50 | the sync-log table becomes the upsert of the old one, the notices are untouched, the constraints hold |
| `Base.StatusOf` | collectors/base.py:39 | the status is "error" exactly when the error count is non-zero, and "success" exactly when it is zero |
| `Base.IndexOfSourceFrom` | collectors/base.py:35 | `query(...).first()`: the first row for the source, with no earlier row for it, or none when no row has it |
| `Base.UpsertLog` | collectors/base.py:36-49 | the upsert adds at most one row and leaves every row of another source unchanged |
| `Base.RemoveCommas` | collectors/base.py:57 | the result holds no comma, keeps every other character as often as it occurs, and leaves text without commas unchanged |
| `Base.RemoveCommasConcat` | collectors/base.py:57 | comma removal works piece by piece, so the remaining characters keep their order |
| `Base.ThousandsSeparatorRead` | collectors/base.py:66 | the thousands-separated amount "1,234" reads as 1234 |
| `Base.SafeFloatOfDigitText` | collectors/base.py:61-68 | text that is a run of digits once its commas are removed reads as the number the digits spell, up to 2^53 |
| `Base.ParseFloat` | collectors/base.py:57 | `float()` of the empty string fails; only a leading minus sign gives a negative number or negative infinity |
| `Base.DigitsRoundTrip` | collectors/base.py:57 | reading back the decimal digits of a number gives the number |
| `Base.ParseFloatOfDigits` | collectors/base.py:66 | `float()` of an optionally signed run of digits spelling at most 2^53 is that integer |
| `Base.SafeFloat` | collectors/base.py:61-68 | a missing or null value gives `None`; anything else is parsed once its commas are removed |
| `Base.SafeFloatOfNumber` | collectors/base.py:61-68 | every integer of magnitude at most 2^53 survives `safe_float` exactly |
| `Base.Truncate` | collectors/base.py:57 | `int()` of a finite float truncates toward zero: the result keeps the float's sign and its magnitude is the whole part of the float's |
| `Base.SafeIntAsWrittenRaisesOnInf` | collectors/base.py:52-59 | as written, `safe_int("inf")` raises `OverflowError` instead of returning `None` |
| `Base.SafeIntAsWritten` | collectors/base.py:52-59 | as written, `safe_int` raises exactly when `safe_float` gives an infinity, and returns a number only for a finite one |
| `Base.SafeInt` | collectors/base.py:52-59 | `safe_int` returns a value exactly when `safe_float` gives a finite number, and agrees with the code wherever the code returns |
| `Base.SafeIntOfNumber` | collectors/base.py:52-59 | every integer of magnitude at most 2^53 survives `safe_int` unchanged |
| `Fetch.ParseResponse` | collectors/nara_bids.py:83-92 | an object document without `response` gives no items. A `response` that is not an object raises, and so does a null, boolean or numeric document. A list or string document raises exactly when it contains "response", and otherwise gives no items |
| `Fetch.ParseResponseNoItems` | collectors/nara_bids.py:84-87 | a body without `items`, or a response without `body`, gives no items, whatever other keys the document, the response and the body carry |
| `Fetch.ParseResponseBareItems` | collectors/nara_bids.py:86-92 | a list under `items` is returned as it is, and a scalar gives no items, whatever other keys the envelope carries |
| `Fetch.ParseResponseWrappedItems` | collectors/nara_bids.py:88-92 | `items.item` as one object gives a one-element list and as a list gives that list; a missing or scalar `item` gives no items, whatever other keys the envelope and `items` carry |
| `Fetch.TagAll` | collectors/nara_bids.py:73-75 | tagging succeeds iff every item is an object; then each item, in order, is tagged with the endpoint name |
| `Fetch.TagAllTags` | collectors/nara_bids.py:73-75 | every tagged record carries the endpoint name under `endpoint` |
| `Fetch.AppendTagged` | collectors/nara_bids.py:73-75 | the inner loop appends the tagged items to the records gathered so far, or raises on the first non-object |
| `Fetch.RequestsFrom` | collectors/nara_bids.py:52-79 | at most 10 pages are requested, and only after a full page of 100 parsed objects does the loop request another |
| `Fetch.FullPagesStopAtCap` | collectors/nara_bids.py:52-79 | even when every page is full, exactly the pages up to the tenth are requested |
| `Fetch.FetchTagsEndpoint` | collectors/nara_bids.py:47-81 | every record an endpoint returns carries that endpoint's name |
| `Fetch.FetchBounded` | collectors/nara_bids.py:52-79 | with pages of at most 100 items, an endpoint returns at most 100 records per page requested |
| `Fetch.FetchRaisesOnlyOnMalformedPage` | collectors/nara_bids.py:63-71 | fetching an endpoint raises only when a requested page arrived and could not be parsed or tagged. A transport failure never raises |
| `Fetch.FetchEndpoint` | collectors/nara_bids.py:47-81 | the pagination loop returns the records of the pages requested in page order, or the exception, and makes at most 10 requests |
| `Fetch.FetchFrom` | collectors/nara_bids.py:52-81 | the pagination raises only if some page from this one up to the cap arrived and raised while parsed or tagged |
| `Fetch.FetchReturnsPagesInOrder` | collectors/nara_bids.py:52-81 | when the pages before the last were full and the last ended the loop without raising, the endpoint returns the records of every requested page, page after page |
| `Fetch.LastPageRecords` | collectors/nara_bids.py:63-78 | a page that neither continues the loop nor raises returns exactly its own tagged records |
| `Fetch.PrependAssoc` | collectors/nara_bids.py:73-75 | prepending records to a later result is associative, which lets the loop extend its list page by page |
| `Scoring.PolicyOf` | collectors/nara_bids.py:95-104 | the keyword sets, the exclude set included when the attribute exists, are the lower-cased settings lists, so every keyword is already in lower case. Regions are taken verbatim. A missing `keywords_exclude` gives no exclusions. Each weight is the configured one, or 15, 8 and 10 by default |
| `Scoring.LowerSetLowered` | collectors/nara_bids.py:95-101 | every keyword of a lower-cased keyword set is its own lower-case form |
| `Scoring.RecordText` | collectors/nara_bids.py:110-113 | the matched text is the lower-cased title, organisation and demanding organisation, joined by single spaces, and holds no upper-case letter |
| `Scoring.Hits` | collectors/nara_bids.py:122-130 | the hit keywords are a subset of the configured ones |
| `Scoring.ExcludeHit` | collectors/nara_bids.py:116 | an exclude keyword hits exactly when some exclude keyword occurs in the text; none configured means no hit, and an empty keyword hits every text |
| `Scoring.RegionHit` | collectors/nara_bids.py:132 | the region gate holds exactly when some region occurs in the text; no region means it never holds, and an empty region string makes it always hold |
| `Scoring.RawScore` | collectors/nara_bids.py:119-134 | with non-negative weights the raw score is non-negative, and at least the high-intent weight or the region weight when that keyword or region is hit |
| `Scoring.Matched` | collectors/nara_bids.py:120-130 | the matched keywords are exactly the configured keywords found in the text, each at most twice |
| `Scoring.HasHighIntentIffHit` | collectors/nara_bids.py:139-141 | asking the matched list for a high-intent keyword is the same as some high-intent keyword occurring in the text |
| `Scoring.Evaluate` | collectors/nara_bids.py:109-147 | an exclude hit always rejects. A record is accepted iff it has no exclude hit, a region hit, a high-intent hit and a truthy notice number; it then scores the weighted hits |
| `Scoring.StoredScore` | collectors/nara_bids.py:167 | the stored score is `min(raw, 100)`: the raw score below 100, and 100 from there on |
| `Scoring.StoredScoreInRange` | collectors/nara_bids.py:167 | with non-negative weights the stored score lies in [0, 100] |
| `Scoring.NegativeWeightGivesNegativeScore` | collectors/nara_bids.py:167 | with a negative weight the stored score falls below 0; only the upper end is clamped |
| `Scoring.HitsStep` | collectors/nara_bids.py:122-130 | examining one keyword more adds it to the hits exactly when it occurs, and adds one to their count |
| `Scoring.AccumulateStep` | collectors/nara_bids.py:122-130 | one keyword more raises the score by its weight and adds it to the matched keywords exactly when it occurs |
| `Scoring.Accumulate` | collectors/nara_bids.py:122-130 | the keyword loop adds one weight per hit keyword and collects exactly the hit keywords, whatever the visiting order |
| `Scoring.ScoreRecord` | collectors/nara_bids.py:109-147 | the per-record body reaches the verdict `Evaluate` specifies |
| `Scoring.UpperCaseRegionNeverMatches` | collectors/nara_bids.py:103-132 | regions are not lower-cased, so a region with an upper-case letter never matches |
| `Scoring.ColdStoragePolicy` | collectors/nara_bids.py:95-104 | one high-intent keyword and one region with default weights give the expected policy |
| `Scoring.TitleOnlyText` | collectors/nara_bids.py:110-113 | a record with only a title is matched on the title and two separators |
| `Scoring.ColdStorageTitleMatches` | collectors/nara_bids.py:123-132 | the sample title holds its region and its keyword |
| `Scoring.ColdStorageScore` | collectors/nara_bids.py:119-134 | a text with the region and the keyword scores 15 + 10 = 25 with one matched keyword |
| `Scoring.ColdStorageAccepted` | collectors/nara_bids.py:109-147 | a Seoul cold-storage notice with a number is accepted with score 25 |
| `Scoring.OutsideRegionRejected` | collectors/nara_bids.py:132-137 | the same notice in Busan is rejected by the region gate despite its keyword |
| `Collector.MakeNotice` | collectors/nara_bids.py:156-173 | the row built for a record is stored under the record's natural key |
| `Collector.KeyOf` | collectors/nara_bids.py:142-153 | the lookup key takes the endpoint tag, the notice number and the notice order as the record gives them when they are strings, "" for a missing endpoint, a non-empty number for a truthy one, and the order "00" when it is missing |
| `Collector.KeyOfSeparates` | collectors/nara_bids.py:142-153 | for string-valued fields, two records share a key exactly when they agree on endpoint, notice number and notice order |
| `Collector.SaveOne` | collectors/nara_bids.py:109-175 | one record adds at most one row and keeps the others; it adds one exactly when it is accepted and its key is not yet stored |
| `Collector.SaveAll` | collectors/nara_bids.py:94-179 | saving a batch adds at most one row per record |
| `Collector.SaveAllStep` | collectors/nara_bids.py:109 | the table after one record more is the table so far with that record saved |
| `Collector.MakeNoticeQualifies` | collectors/nara_bids.py:156-173 | the row built for an accepted record keeps the record's text, score, matched keywords and a non-empty notice number |
| `Collector.SaveAllExtends` | collectors/nara_bids.py:149-175 | saving only appends, at most one row per record, and leaves existing rows as they were |
| `Collector.SaveAllKeepsConstraints` | collectors/nara_bids.py:149-175 | `uq_bid` and the primary key survive a save |
| `Collector.SaveAllQualifies` | collectors/nara_bids.py:132-147 | every row a save appends comes from the batch and passed all gates: no exclude keyword, a region, a high-intent keyword, a notice number |
| `Collector.SaveAllKeepsKeys` | collectors/nara_bids.py:149-175 | a key stored before a save is stored after it |
| `Collector.SaveAllCoversAccepted` | collectors/nara_bids.py:149-175 | after a save, every accepted record's key is in the table |
| `Collector.SaveAllNoNewKeys` | collectors/nara_bids.py:149-175 | when every accepted record's key is already stored, a save changes nothing |
| `Collector.SaveAllIdempotent` | collectors/nara_bids.py:149-179 | saving the same batch again adds no row |
| `Collector.ExcludedNeverStored` | collectors/nara_bids.py:116-117 | no row that a save appends has text containing an exclude keyword |
| `Collector.DuplicateInBatchStoredOnce` | collectors/nara_bids.py:149-175 | two records with one key in a batch give at most one row, and exactly one when the first is accepted and new |
| `Collector.SaveRecord` | collectors/nara_bids.py:109-175 | one pass of the loop stores the record exactly as `SaveOne` says and reports whether it added a row |
| `Collector.ScoreAndSave` | collectors/nara_bids.py:94-179 | the table becomes `SaveAll` of the old one, the count returned is the number of rows added, the sync logs are untouched |
| `Collector.BaseUrlOf` | collectors/nara_bids.py:18-19 | the base URL is the one configured under `api.nara`, or the built-in one when none is |
| `Collector.EndpointsOf` | collectors/nara_bids.py:18-24 | the endpoints are the ones configured under `api.nara`, or the three built-in ones when none are |
| `Collector.FetchAllErrors` | collectors/nara_bids.py:32-39 | the error tally is at most the number of endpoints, and zero iff every endpoint's fetch returned |
| `Collector.FetchAll` | collectors/nara_bids.py:29-39 | the error tally never exceeds the number of endpoints |
| `Collector.AllTimeoutsNoErrors` | collectors/nara_bids.py:63-67 | when every endpoint's first request fails in transport, nothing is gathered and no error is counted |
| `Collector.FetchAllTagged` | collectors/nara_bids.py:32-35 | every gathered record names one of the configured endpoints |
| `Collector.FetchAllSnoc` | collectors/nara_bids.py:32-39 | one endpoint more appends its records or adds one error |
| `Collector.FetchEndpoints` | collectors/nara_bids.py:29-39 | the endpoint loop gathers every endpoint's records in order and counts the endpoints that raised |
| `Collector.Collect` | collectors/nara_bids.py:14-45 | without a service key: one error, nothing touched. Otherwise: the gathered records are saved, the result reports their number, the rows added and the errors, and the sync log is upserted with it |
| `BidAlert.TitleText` | bid_alert.py:30 | a title of at most 50 characters is shown whole; a longer one is cut to 50 and "..." appended |
| `BidAlert.CloseText` | bid_alert.py:26 | an empty closing date shows "미정"; any other shows its first 16 characters at most |
| `BidAlert.FormatBidMessage` | bid_alert.py:24-38 | the alert shows the truncated title, the truncated closing date and the matched keywords of the row. It shows the organisation and link when they are non-empty, and "-" or "#" otherwise. It shows the budget exactly when it is present and non-zero |
| `BidAlert.NewBidsMembers` | bid_alert.py:65-70 | the new bids are exactly the rows whose id was not there before |
| `BidAlert.HighScoringMembers` | bid_alert.py:74-77 | alerts go to exactly the new bids scoring 20 or more |
| `BidAlert.Alerts` | bid_alert.py:76-79 | one alert per high-scoring new bid, in order, each the formatted notice |
| `BidAlert.SentCount` | bid_alert.py:75-81 | the notified count is at most the number of high-scoring new bids |
| `BidAlert.Outbox` | bid_alert.py:74-91 | the alerts come first; a last message follows exactly when there is a new bid, and it is the summary with the number of new bids and the number of alerts accepted |
| `BidAlert.OutboxShape` | bid_alert.py:74-91 | alerts come first, one per high-scoring new bid; a summary is sent exactly when there is a new bid |
| `BidAlert.NewBidsSuffix` | bid_alert.py:65-70 | when the earlier rows carry old ids and the later ones new ids, the new bids are the later rows |
| `BidAlert.NewBidsAreInserted` | bid_alert.py:57-70 | comparing ids before and after an append-only run picks out exactly the appended rows |
| `BidAlert.NewBidsAfterSave` | bid_alert.py:57-70 | after a collector run the new bids are the rows it inserted, as many as it reports inserted |
| `BidAlert.SelectNew` | bid_alert.py:65-70 | the selection loop returns the rows with unseen ids, in table order |
| `BidAlert.NotifyAll` | bid_alert.py:74-81 | the alert loop sends one alert per high-scoring bid and counts the accepted sends |
| `BidAlert.NotifyNew` | bid_alert.py:65-91 | after the run: the new bids, the sends accepted and everything sent, summary included |
| `BidAlert.CheckAndNotify` | bid_alert.py:41-97 | missing Telegram credentials or service key: an error report, nothing sent or stored. Otherwise the collector's rows are saved, the new bids are exactly those rows, and the report and the messages are as specified |

## Left out

- HTTP requests, the Telegram POST, `resp.json()` and the HTML text of messages: the network is an oracle and a message is modelled by its fields.
- Query parameters of the page request (service key, `strftime` window, `days_back`): they only shape the request the oracle answers.
- The clock: `datetime.now()` and `utcnow()` are a `Timestamp` parameter, and the summary's `%m/%d %H:%M` rendering is not modelled.
- Float formatting of the budget (`{:,.0f}`): the alert carries the value itself.
- Base.ParseFloat: Python's `float()` is modelled for signed decimal numerals, `inf`, `infinity` and `nan` only. Exponents, surrounding whitespace and underscores are not modelled, and JSON numbers are integral.
- Base.ParseFloat: a float is an exact decimal, not an IEEE double. There is no rounding to 53 bits ("9007199254740993" stays odd), no overflow to infinity for numerals past about 1.8e308, and no underflow to 0.0 for tiny ones.
- Base.SafeFloat: returns the exact decimal of `Base.ParseFloat`, so it misses the rounding, overflow and underflow of a double. An underflowed budget is 0.0 and shows "미정" in the code, but shows as a number in the model.
- Base.SafeIntAsWritten: because floats are exact, a numeral past the double range returns an integer here, where the code raises `OverflowError` as it does for "inf".
- Base.SafeInt: it agrees with `Base.SafeIntAsWritten`, which is exact, not with a double-rounded `int(float(...))` for integers above 2^53.
- Base.ParseFloatOfDigits: stated only up to 2^53, the range in which a double holds every integer exactly.
- Base.SafeFloatOfNumber: stated only up to 2^53, the range in which a double holds every integer exactly.
- Base.SafeIntOfNumber: stated only up to 2^53, the range in which a double holds every integer exactly.
- `str()` of a JSON list or object is rendered as a fixed placeholder, not as Python's repr. So a list-valued title, organisation or demand field is matched as the placeholder, where the code matches its repr (`["서울 냉동창고"]` matches "서울" and "냉동" there).
- Collector.KeyOf: a list or object notice number cannot be bound into the duplicate query, so the code's `_score_and_save` raises and `collect` ends without writing the sync log. The model does not capture that raise: it stores the row under the placeholder key, where two different list-valued numbers collide.
- Text.Lower: maps ASCII letters only; Unicode case folding is not modelled (Korean text has no case).
- SQLite type affinity is simplified: key columns store the text form of the value, and the unwritten `region`, `category` and `open_dt` columns are not modelled.
- `json.dumps` of the matched keywords and the raw record: the row stores the multiset and the record itself.
- A malformed endpoint configuration (an entry without `path` or `name`, raising `KeyError`) is not modelled: endpoints are typed records.
- Sessions, commits and concurrent writers: each method call is one atomic change.
- Schema.Database.AddNotice: a duplicate key makes SQLite raise `IntegrityError` at commit; the model returns `ok == false` and stores nothing instead. The collector checks the key before adding, so it never takes that branch.
- `print` output, and loading the YAML settings and the environment, which arrive as plain values.
- BidAlert.NewBids: its own contract bounds only the length; what its members are is stated by `BidAlert.NewBidsMembers`.
- BidAlert.HighScoring: its own contract bounds only the length; what its members are is stated by `BidAlert.HighScoringMembers`.

## Findings

| source | as written | input that shows it | evidently intended | confidence | as-written member | corrected member |
|---|---|---|---|---|---|---|
| collectors/base.py:52-59 | `int(float(...))` catches only `ValueError` and `TypeError`, so the `OverflowError` raised for an infinity escapes | `safe_int("inf")` (also "-Infinity") | return `None` for any value that is not a finite number | high, not executed | `Base.SafeIntAsWrittenRaisesOnInf` | `Base.SafeInt` |

=== FILE: base.dfy ===
/** The collector base: the run summary, the sync-log upsert and the tolerant
    numeric coercions `safe_int` / `safe_float`. */
module Base {
  import opened Wrappers
  import opened Json
  import opened Text
  import opened Schema

  /** The outcome of one collector run. `errors` and `message` default to 0
      and "" as the dataclass declares. */
  datatype CollectResult = CollectResult(
    source: string,
    total: int,
    inserted: int,
    updated: int,
    errors: int := 0,
    message: string := "")

  /** The status text a sync-log row records: "error" when the error count is
      non-zero (Python truthiness), otherwise "success". */
  function StatusOf(result: CollectResult): (status: string)
    ensures status == "error" <==> result.errors != 0
    ensures status == "success" <==> result.errors == 0
  {
    if result.errors != 0 then "error" else "success"
  }

  /** `session.query(SyncLog).filter(SyncLog.source == source).first()`, as
      the position of the first row for `source`, searching from `from`. */
  function IndexOfSourceFrom(logs: seq<SyncLog>, source: string, from: nat): (r: Option<nat>)
    requires from <= |logs|
    ensures r.Some? ==> from <= r.value < |logs| && logs[r.value].source == source
    ensures r.Some? ==> forall k :: from <= k < r.value ==> logs[k].source != source
    ensures r.None? ==> forall k :: from <= k < |logs| ==> logs[k].source != source
    decreases |logs| - from
  {
    if from == |logs| then None
    else if logs[from].source == source then Some(from)
    else IndexOfSourceFrom(logs, source, from + 1)
  }

  function IndexOfSource(logs: seq<SyncLog>, source: string): Option<nat> {
    IndexOfSourceFrom(logs, source, 0)
  }

  /** The `sync_logs` table after `update_sync_log`: the row for `source` is
      overwritten in place when there is one, otherwise a row is appended. */
  function UpsertLog(logs: seq<SyncLog>, source: string, result: CollectResult, now: Timestamp): (r: seq<SyncLog>)
    ensures |logs| <= |r| <= |logs| + 1
    ensures forall i :: 0 <= i < |logs| && logs[i].source != source ==> r[i] == logs[i]
  {
    match IndexOfSource(logs, source)
    case Some(i) =>
      logs[i := logs[i].(lastSync := now, recordsCount := result.total,
                         status := StatusOf(result), message := result.message)]
    case None =>
      logs + [SyncLog(NextId(LogIds(logs)), source, now, result.total, StatusOf(result), result.message)]
  }

  /** What the upsert promises: afterwards exactly one row belongs to `source`,
      holding the run's record count (the records seen, not inserted), its
      status and message; an existing row keeps its id and place, no row is
      added for a source that had one, and every other row is unchanged. */
  lemma UpsertLogSpec(logs: seq<SyncLog>, source: string, result: CollectResult, now: Timestamp)
    requires SourcesUnique(logs) && LogIdsUnique(logs)
    ensures var r := UpsertLog(logs, source, result, now);
      && SourcesUnique(r) && LogIdsUnique(r)
      && (exists i :: 0 <= i < |r| && r[i].source == source
            && r[i].recordsCount == result.total && r[i].lastSync == now
            && (r[i].status == "error" <==> result.errors != 0)
            && (r[i].status == "success" <==> result.errors == 0)
            && r[i].message == result.message)
      && (forall i :: 0 <= i < |logs| && logs[i].source == source ==> |r| == |logs| && r[i].id == logs[i].id)
      && ((forall i :: 0 <= i < |logs| ==> logs[i].source != source) ==> |r| == |logs| + 1)
      && (forall i :: 0 <= i < |logs| && logs[i].source != source ==> r[i] == logs[i])
  {
    var r := UpsertLog(logs, source, result, now);
    match IndexOfSource(logs, source)
    case Some(k) =>
      assert r[k].source == source;
      forall i, j | 0 <= i < j < |r| ensures r[i].source != r[j].source && r[i].id != r[j].id {
        assert r[i].id == logs[i].id && r[j].id == logs[j].id;
      }
    case None =>
      var last := |logs|;
      assert r[last].source == source;
      forall i, j | 0 <= i < j < |r| ensures r[i].source != r[j].source && r[i].id != r[j].id {
        if j == last {
          assert r[i] == logs[i];
        }
      }
  }

  /** `update_sync_log(result)` for the collector named `source`. */
  method UpdateSyncLog(db: Database, source: string, result: CollectResult, now: Timestamp)
    requires db.Valid()
    modifies db
    ensures db.Valid()
    ensures db.syncLogs == UpsertLog(old(db.syncLogs), source, result, now)
    ensures db.notices == old(db.notices)
  {
    UpsertLogSpec(db.syncLogs, source, result, now);
    var found := IndexOfSource(db.syncLogs, source);
    match found {
      case Some(i) =>
        var log := db.syncLogs[i];
        db.syncLogs := db.syncLogs[i := log.(lastSync := now, recordsCount := result.total,
                                             status := StatusOf(result), message := result.message)];
      case None =>
        var log := SyncLog(NextId(LogIds(db.syncLogs)), source, now, result.total, StatusOf(result), result.message);
        db.syncLogs := db.syncLogs + [log];
    }
  }

  // ----- tolerant numeric coercion -----

  /** `s.replace(',', '')`: no comma is left, every other character is kept
      as often as it occurs, and text without commas is unchanged. */
  function RemoveCommas(s: string): (r: string)
    ensures forall i :: 0 <= i < |r| ==> r[i] != ','
    ensures forall c :: c != ',' ==> multiset(r)[c] == multiset(s)[c]
    ensures (forall i :: 0 <= i < |s| ==> s[i] != ',') ==> r == s
  {
    if s == [] then []
    else
      assert s == [s[0]] + s[1..];
      (if s[0] == ',' then [] else [s[0]]) + RemoveCommas(s[1..])
  }

  /** Removing commas works piecewise, so the characters that remain keep
      their order. */
  lemma {:induction false} RemoveCommasConcat(a: string, b: string)
    ensures RemoveCommas(a + b) == RemoveCommas(a) + RemoveCommas(b)
    decreases |a|
  {
    if a == [] {
      assert a + b == b;
    } else {
      assert (a + b)[0] == a[0] && (a + b)[1..] == a[1..] + b;
      RemoveCommasConcat(a[1..], b);
      var head := if a[0] == ',' then [] else [a[0]];
      assert head + (RemoveCommas(a[1..]) + RemoveCommas(b)) == (head + RemoveCommas(a[1..])) + RemoveCommas(b);
    }
  }

  predicate IsDigit(c: char) {
    '0' <= c <= '9'
  }

  predicate AllDigits(s: string) {
    forall i :: 0 <= i < |s| ==> IsDigit(s[i])
  }

  /** The value of a string of decimal digits. */
  function DigitsValue(s: string): nat
    requires AllDigits(s)
  {
    if s == [] then 0 else 10 * DigitsValue(s[..|s| - 1]) + (s[|s| - 1] as int - '0' as int)
  }

  function Pow10(k: nat): (p: nat)
    ensures p >= 1
  {
    if k == 0 then 1 else 10 * Pow10(k - 1)
  }

  /** Reading back the digits of a number gives the number. */
  lemma {:induction false} DigitsRoundTrip(n: nat)
    ensures AllDigits(Digits(n)) && DigitsValue(Digits(n)) == n
    decreases n
  {
    var d := Digits(n);
    if n >= 10 {
      DigitsRoundTrip(n / 10);
      assert d[..|d| - 1] == Digits(n / 10);
    }
  }

  /** The position of the first '.' in `s`, if any. */
  function FirstDot(s: string): (r: Option<nat>)
    ensures r.Some? ==> r.value < |s| && s[r.value] == '.'
    ensures r.Some? ==> forall i :: 0 <= i < r.value ==> s[i] != '.'
    ensures r.None? ==> forall i :: 0 <= i < |s| ==> s[i] != '.'
  {
    if s == [] then None
    else if s[0] == '.' then Some(0)
    else
      match FirstDot(s[1..])
      case None => None
      case Some(k) => Some(k + 1)
  }

  /** The unsigned part of a decimal numeral: `digits`, `digits.digits`,
      `.digits` or `digits.`, as (units, scale) meaning units / 10^scale. */
  function ParseUnsigned(s: string): Option<(nat, nat)> {
    if AllDigits(s) then
      (if s == "" then None else Some((DigitsValue(s), 0)))
    else
      match FirstDot(s)
      case None => None
      case Some(k) =>
        var whole, frac := s[..k], s[k + 1..];
        if AllDigits(whole) && AllDigits(frac) && |whole| + |frac| > 0 then
          assert AllDigits(whole + frac);
          Some((DigitsValue(whole + frac), |frac|))
        else None
  }

  /** The sign of a numeral and the text after it. */
  function SplitSign(s: string): (bool, string) {
    if |s| > 0 && (s[0] == '-' || s[0] == '+') then (s[0] == '-', s[1..]) else (false, s)
  }

  /** Python's `float(s)` on the numerals modelled here: an optional sign
      followed by `inf`, `infinity` or `nan` (any case) or a decimal numeral.
      `None` stands for the `ValueError` every other string raises. */
  function ParseFloat(s: string): (r: Option<FloatValue>)
    ensures s == "" ==> r == None
    ensures r.Some? && r.value.Finite? && r.value.units < 0 ==> s[0] == '-'
    ensures r.Some? && r.value.Infinity? ==> (r.value.negative <==> s[0] == '-')
  {
    var (neg, body) := SplitSign(s);
    var low := Lower(body);
    if low == "inf" || low == "infinity" then Some(Infinity(neg))
    else if low == "nan" then Some(NaN)
    else
      match ParseUnsigned(body)
      case Some((units, scale)) => Some(Finite(if neg then -(units as int) else units as int, scale))
      case None => None
  }

  /** 2^53: every integer up to this magnitude is exactly a double. */
  const MaxExactInt: int := 0x20_0000_0000_0000

  /** A non-empty run of digits spelling a number a double holds exactly
      parses as that number. */
  lemma ParseFloatOfDigits(neg: bool, d: string)
    requires AllDigits(d) && d != "" && DigitsValue(d) <= MaxExactInt
    ensures ParseFloat((if neg then "-" else "") + d) == Some(Finite(if neg then -(DigitsValue(d) as int) else DigitsValue(d) as int, 0))
  {
    var s := (if neg then "-" else "") + d;
    assert SplitSign(s) == (neg, d) by {
      assert IsDigit(d[0]);
      if neg { assert s[1..] == d; } else { assert s == d; }
    }
    var low := Lower(d);
    assert low[0] == d[0];
    assert low != "inf" && low != "infinity" && low != "nan" by {
      assert "inf"[0] == 'i' && "infinity"[0] == 'i' && "nan"[0] == 'n';
    }
  }

  /** `safe_float(val)`: `None` for a missing/`None` value and for text that
      does not parse, once thousands separators are removed. */
  function SafeFloat(v: Option<Value>): (r: Option<FloatValue>)
    ensures v == None || v == Some(Null) ==> r == None
    ensures v.Some? && v.value != Null ==> r == ParseFloat(RemoveCommas(Display(v.value)))
  {
    match v
    case None => None
    case Some(Null) => None
    case Some(x) => ParseFloat(RemoveCommas(Display(x)))
  }

  /** `int(f)` of the finite float `units / 10^scale`: truncation toward
      zero, so the result has the float's sign and the largest magnitude not
      above the float's. */
  function Truncate(units: int, scale: nat): (n: int)
    ensures units >= 0 ==> 0 <= n * Pow10(scale) <= units < (n + 1) * Pow10(scale)
    ensures units < 0 ==> (n - 1) * Pow10(scale) < units <= n * Pow10(scale) <= 0
    ensures scale == 0 ==> n == units
  {
    var a: nat := if units >= 0 then units else -units;
    TruncateBounds(a, Pow10(scale));
    if units >= 0 then a / Pow10(scale) else -(a / Pow10(scale))
  }

  /** The quotient `a / p` brackets `a` between consecutive multiples of `p`,
      and its negation brackets `-a`. */
  lemma TruncateBounds(a: int, p: int)
    requires a >= 0 && p >= 1
    ensures var q := a / p;
      && 0 <= q * p <= a < (q + 1) * p
      && (-q - 1) * p < -a <= (-q) * p <= 0
  {
    var q, r := a / p, a % p;
    assert a == q * p + r;
    assert (q + 1) * p == q * p + p;
    assert (-q) * p == -(q * p);
    assert (-q - 1) * p == -(q * p) - p;
  }

  /** An integer a double holds exactly, as `safe_float` reads it: exactly
      itself. */
  lemma {:induction false} SafeFloatOfNumber(n: int)
    requires -MaxExactInt <= n <= MaxExactInt
    ensures SafeFloat(Some(Num(n))) == Some(Finite(n, 0))
  {
    var m: nat := if n < 0 then -n else n;
    var d := Digits(m);
    DigitsRoundTrip(m);
    assert Display(Num(n)) == (if n < 0 then "-" else "") + d;
    NumeralReads(n < 0, d, n);
  }

  /** A signed run of digits spelling `n` reads back through `safe_float`'s
      comma removal and `float()` as `n`. */
  lemma NumeralReads(neg: bool, d: string, n: int)
    requires AllDigits(d) && d != "" && DigitsValue(d) <= MaxExactInt
    requires n == if neg then -(DigitsValue(d) as int) else DigitsValue(d) as int
    ensures ParseFloat(RemoveCommas((if neg then "-" else "") + d)) == Some(Finite(n, 0))
  {
    NoCommaInNumeral(neg, d);
    ParseFloatOfDigits(neg, d);
  }

  lemma NoCommaInNumeral(neg: bool, d: string)
    requires AllDigits(d)
    ensures RemoveCommas((if neg then "-" else "") + d) == (if neg then "-" else "") + d
  {
    var s := (if neg then "-" else "") + d;
    forall i | 0 <= i < |s| ensures s[i] != ',' {
      if neg && i == 0 {
      } else {
        assert s[i] == d[if neg then i - 1 else i];
      }
    }
  }

  /** The point of removing commas: a thousands-separated amount reads as the
      number it spells. */
  lemma ThousandsSeparatorRead()
    ensures SafeFloat(Some(Str("1,234"))) == Some(Finite(1234, 0))
  {
    SeparatorRemoved();
    DigitsOf1234();
    SafeFloatOfDigitText("1,234", "1234");
  }

  /** Text whose commas hide a run of digits reads as the number the digits
      spell. */
  lemma SafeFloatOfDigitText(t: string, d: string)
    requires RemoveCommas(t) == d && AllDigits(d) && d != "" && DigitsValue(d) <= MaxExactInt
    ensures SafeFloat(Some(Str(t))) == Some(Finite(DigitsValue(d), 0))
  {
    ParseFloatOfDigits(false, d);
    assert (if false then "-" else "") + d == d;
  }

  lemma SeparatorRemoved()
    ensures RemoveCommas("1,234") == "1234"
  {
    assert "1,234" == "1" + ("," + "234");
    RemoveCommasConcat("1", "," + "234");
    RemoveCommasConcat(",", "234");
    assert RemoveCommas(",") == [];
  }

  lemma DigitsOf1234()
    ensures AllDigits("1234") && DigitsValue("1234") == 1234
  {
    assert "1234"[..3] == "123" && "123"[..2] == "12" && "12"[..1] == "1";
  }

  /** What `int(float(text))` does in the code as written: a parse failure or
      NaN raises `ValueError`, which is caught and gives `None`; an infinity
      raises `OverflowError`, which is not caught and escapes. */
  datatype Outcome<T> = Returns(value: T) | Raises(exception: string)

  function SafeIntAsWritten(v: Option<Value>): (r: Outcome<Option<int>>)
    ensures r.Raises? <==> SafeFloat(v).Some? && SafeFloat(v).value.Infinity?
    ensures r.Returns? && r.value.Some? ==> SafeFloat(v).Some? && SafeFloat(v).value.Finite?
  {
    match SafeFloat(v)
    case None => Returns(None)
    case Some(NaN) => Returns(None)
    case Some(Infinity(_)) => Raises("OverflowError")
    case Some(Finite(units, scale)) => Returns(Some(Truncate(units, scale)))
  }

  /** The text "inf" makes `safe_int` raise instead of returning `None`. */
  lemma SafeIntAsWrittenRaisesOnInf()
    ensures SafeIntAsWritten(Some(Str("inf"))) == Raises("OverflowError")
  {
    assert forall i :: 0 <= i < |"inf"| ==> "inf"[i] != ',';
    assert forall i :: 0 <= i < |"inf"| ==> !IsUpper("inf"[i]);
    assert SplitSign("inf") == (false, "inf");
    assert SafeFloat(Some(Str("inf"))) == Some(Infinity(false));
  }

  /** `safe_int(val)` as evidently intended: it never raises, giving `None`
      whenever the value is missing, unparseable or not finite. */
  function SafeInt(v: Option<Value>): (r: Option<int>)
    ensures r.Some? <==> SafeFloat(v).Some? && SafeFloat(v).value.Finite?
    ensures SafeIntAsWritten(v).Returns? ==> r == SafeIntAsWritten(v).value
  {
    match SafeFloat(v)
    case Some(Finite(units, scale)) => Some(Truncate(units, scale))
    case _ => None
  }

  /** An integer a double holds exactly survives `safe_int` unchanged. */
  lemma SafeIntOfNumber(n: int)
    requires -MaxExactInt <= n <= MaxExactInt
    ensures SafeInt(Some(Num(n))) == Some(n)
  {
    SafeFloatOfNumber(n);
    assert Pow10(0) == 1;
    assert Truncate(n, 0) == n;
  }
}

=== FILE: bid_alert.dfy ===
/** The notifier entry point: it checks the credentials, runs the collector,
    works out which notices are new and alerts on the high-scoring ones. The
    Telegram call is an oracle `send(token, chatId, message)` answering whether
    the API replied 200; a message is modelled by its fields, not its HTML. */
module BidAlert {
  import opened Wrappers
  import opened Json
  import opened Config
  import opened Schema
  import opened Base
  import opened Fetch
  import opened Scoring
  import opened Collector

  /** Only new notices scoring at least this much are sent. */
  const ScoreThreshold: int := 20
  /** Characters of a title shown in an alert. */
  const TitleLimit: nat := 50
  /** Characters of a closing date shown in an alert. */
  const CloseLimit: nat := 16
  /** The placeholder shown for a missing budget or closing date ("to be
      decided"). */
  const Undecided: string := "미정"

  /** The fields `format_bid_message` puts into an alert. `budget` is `None`
      when the alert shows the placeholder; the amount's thousands-separated
      rendering is not modelled. */
  datatype BidMessage = BidMessage(
    title: string,
    org: string,
    budget: Option<FloatValue>,
    close: string,
    matchedKeywords: multiset<string>,
    url: string)

  /** What is sent: one alert per notified notice, then the run summary. */
  datatype Outgoing = Alert(message: BidMessage) | Summary(newBids: nat, notified: nat, at: Timestamp)

  /** `send_telegram(token, chat_id, message)`: true on an HTTP 200. */
  type Sender = (string, string, Outgoing) -> bool

  /** What `check_and_notify` returns. */
  datatype Report = ConfigError(error: string) | Done(collected: int, newBids: nat, notified: nat)

  /** The title as shown: its first 50 characters, with "..." appended exactly
      when something was cut off. */
  function TitleText(title: string): (r: string)
    ensures |title| <= TitleLimit ==> r == title
    ensures |title| > TitleLimit ==> |r| == TitleLimit + 3 && r[..TitleLimit] == title[..TitleLimit] && r[TitleLimit..] == "..."
  {
    title[..if |title| < TitleLimit then |title| else TitleLimit] + (if |title| > TitleLimit then "..." else "")
  }

  /** The closing date as shown: at most its first 16 characters, or the
      placeholder when it is empty. */
  function CloseText(closeDt: string): (r: string)
    ensures closeDt == "" ==> r == Undecided
    ensures closeDt != "" ==> |r| == (if |closeDt| < CloseLimit then |closeDt| else CloseLimit) && r == closeDt[..|r|]
  {
    if closeDt == "" then Undecided
    else closeDt[..if |closeDt| < CloseLimit then |closeDt| else CloseLimit]
  }

  /** A float's truthiness: zero is false, NaN and the infinities are true. */
  predicate FloatTruthy(f: FloatValue) {
    !(f.Finite? && f.units == 0)
  }

  /** `format_bid_message(bid)`. */
  function FormatBidMessage(bid: BidNotice): (m: BidMessage)
    ensures |m.title| <= TitleLimit + 3
    ensures m.close == Undecided || |m.close| <= CloseLimit
    ensures m.budget.Some? <==> bid.budget.Some? && FloatTruthy(bid.budget.value)
    ensures m.org != "" && m.url != ""
    ensures m.title == TitleText(bid.title) && m.close == CloseText(bid.bidCloseDt)
    ensures bid.org != "" ==> m.org == bid.org
    ensures bid.url != "" ==> m.url == bid.url
    ensures m.budget.Some? ==> m.budget == bid.budget
    ensures m.matchedKeywords == bid.matchedKeywords
  {
    BidMessage(
      TitleText(bid.title),
      if bid.org == "" then "-" else bid.org,
      if bid.budget.Some? && FloatTruthy(bid.budget.value) then bid.budget else None,
      CloseText(bid.bidCloseDt),
      bid.matchedKeywords,
      if bid.url == "" then "#" else bid.url)
  }

  /** The ids already in the table. */
  function IdsOf(rows: seq<BidNotice>): set<nat> {
    set r | r in rows :: r.id
  }

  /** `new_bids`: the rows, in table order, whose id was not among `before`. */
  function NewBids(before: set<nat>, rows: seq<BidNotice>): (r: seq<BidNotice>)
    ensures |r| <= |rows|
  {
    if rows == [] then []
    else
      var last := rows[|rows| - 1];
      NewBids(before, rows[..|rows| - 1]) + (if last.id !in before then [last] else [])
  }

  /** The new bids are exactly the rows whose id was not among `before`. */
  lemma {:induction false} NewBidsMembers(before: set<nat>, rows: seq<BidNotice>)
    ensures forall b :: b in NewBids(before, rows) <==> b in rows && b.id !in before
    decreases |rows|
  {
    if rows != [] {
      var init := rows[..|rows| - 1];
      NewBidsMembers(before, init);
      assert rows == init + [rows[|rows| - 1]];
    }
  }

  /** The new notices that reach the alert threshold, in order. */
  function HighScoring(bids: seq<BidNotice>): (r: seq<BidNotice>)
    ensures |r| <= |bids|
  {
    if bids == [] then []
    else
      var last := bids[|bids| - 1];
      HighScoring(bids[..|bids| - 1]) + (if last.score >= ScoreThreshold then [last] else [])
  }

  /** Only notices scoring at least `ScoreThreshold` are alerted on, and all
      of them are. */
  lemma {:induction false} HighScoringMembers(bids: seq<BidNotice>)
    ensures forall b :: b in HighScoring(bids) <==> b in bids && b.score >= ScoreThreshold
    decreases |bids|
  {
    if bids != [] {
      var init := bids[..|bids| - 1];
      HighScoringMembers(init);
      assert bids == init + [bids[|bids| - 1]];
    }
  }

  /** The alerts sent for `bids`, one per high-scoring notice, in order. */
  function Alerts(bids: seq<BidNotice>): (r: seq<Outgoing>)
    ensures |r| == |HighScoring(bids)|
    ensures forall i :: 0 <= i < |r| ==> r[i] == Alert(FormatBidMessage(HighScoring(bids)[i]))
  {
    if bids == [] then []
    else
      var last := bids[|bids| - 1];
      Alerts(bids[..|bids| - 1]) + (if last.score >= ScoreThreshold then [Alert(FormatBidMessage(last))] else [])
  }

  /** How many of the alerts for `bids` the messaging API accepted. */
  function SentCount(bids: seq<BidNotice>, send: Sender, token: string, chatId: string): (n: nat)
    ensures n <= |HighScoring(bids)|
  {
    if bids == [] then 0
    else
      var last := bids[|bids| - 1];
      SentCount(bids[..|bids| - 1], send, token, chatId)
        + (if last.score >= ScoreThreshold && send(token, chatId, Alert(FormatBidMessage(last))) then 1 else 0)
  }

  /** Everything `check_and_notify` sends for the new notices `added`: the
      alerts, then a summary exactly when there is at least one new notice. */
  function Outbox(added: seq<BidNotice>, send: Sender, token: string, chatId: string, now: Timestamp): (o: seq<Outgoing>)
    ensures |o| == |Alerts(added)| + (if added != [] then 1 else 0)
    ensures o[..|Alerts(added)|] == Alerts(added)
    ensures added != [] ==> o[|o| - 1] == Summary(|added|, SentCount(added, send, token, chatId), now)
  {
    Alerts(added) + (if added != [] then [Summary(|added|, SentCount(added, send, token, chatId), now)] else [])
  }

  /** What is sent: the alerts first, one per high-scoring new bid, then a
      summary, which is there exactly when there is at least one new bid. */
  lemma OutboxShape(added: seq<BidNotice>, send: Sender, token: string, chatId: string, now: Timestamp)
    ensures var o := Outbox(added, send, token, chatId, now);
      && |o| == |HighScoring(added)| + (if added != [] then 1 else 0)
      && (forall i :: 0 <= i < |HighScoring(added)| ==> o[i] == Alert(FormatBidMessage(HighScoring(added)[i])))
      && ((exists i :: 0 <= i < |o| && o[i].Summary?) <==> added != [])
  {
    var o := Outbox(added, send, token, chatId, now);
    var alerts := Alerts(added);
    if added != [] {
      assert o[|o| - 1].Summary?;
    } else {
      assert o == [];
    }
    forall i | 0 <= i < |HighScoring(added)| ensures o[i] == Alert(FormatBidMessage(HighScoring(added)[i])) {
      assert o[i] == alerts[i];
    }
  }

  /** When the rows of `s` before `k` carry ids from `before` and those from `k`
      on do not, the new bids are exactly the rows from `k` on. */
  lemma {:induction false} NewBidsSuffix(before: set<nat>, s: seq<BidNotice>, k: nat)
    requires k <= |s|
    requires forall i :: 0 <= i < k ==> s[i].id in before
    requires forall i :: k <= i < |s| ==> s[i].id !in before
    ensures NewBids(before, s) == s[k..]
    decreases |s|
  {
    if s != [] {
      var init := s[..|s| - 1];
      var last := s[|s| - 1];
      if k < |s| {
        NewBidsSuffix(before, init, k);
        assert init[k..] + [last] == s[k..];
      } else {
        NewBidsSuffix(before, init, k - 1);
      }
    }
  }

  /** Comparing ids before and after the run picks out exactly the rows the
      run inserted, so `new_bids` has as many entries as `collected`. */
  lemma NewBidsAreInserted(rows: seq<BidNotice>, after: seq<BidNotice>)
    requires |rows| <= |after| && after[..|rows|] == rows
    requires IdsUnique(after)
    ensures NewBids(IdsOf(rows), after) == after[|rows|..]
    ensures |NewBids(IdsOf(rows), after)| == |after| - |rows|
  {
    forall i | 0 <= i < |rows| ensures after[i].id in IdsOf(rows) {
      assert after[i] == rows[i];
    }
    forall i | |rows| <= i < |after| ensures after[i].id !in IdsOf(rows) {
      forall r | r in rows ensures r.id != after[i].id {
        var j :| 0 <= j < |rows| && rows[j] == r;
        assert after[j] == rows[j];
      }
    }
    NewBidsSuffix(IdsOf(rows), after, |rows|);
  }

  /** After a run of the collector, the new bids are exactly the rows it
      appended, as many as it reports inserted. */
  lemma NewBidsAfterSave(rows: seq<BidNotice>, bids: seq<Item>, p: Policy, now: Timestamp)
    requires IdsUnique(SaveAll(rows, bids, p, now))
    ensures var after := SaveAll(rows, bids, p, now);
      && |rows| <= |after|
      && NewBids(IdsOf(rows), after) == after[|rows|..]
      && |NewBids(IdsOf(rows), after)| == |after| - |rows|
  {
    SaveAllExtends(rows, bids, p, now);
    NewBidsAreInserted(rows, SaveAll(rows, bids, p, now));
  }

  /** The loop building `new_bids`: the rows whose id is not in
      `existingIds`, in table order. */
  method SelectNew(rows: seq<BidNotice>, existingIds: set<nat>) returns (newBids: seq<BidNotice>)
    ensures newBids == NewBids(existingIds, rows)
  {
    newBids := [];
    var i := 0;
    while i < |rows|
      invariant 0 <= i <= |rows|
      invariant newBids == NewBids(existingIds, rows[..i])
    {
      assert rows[..i + 1][..i] == rows[..i];
      if rows[i].id !in existingIds {
        newBids := newBids + [rows[i]];
      }
      i := i + 1;
    }
    assert rows[..|rows|] == rows;
  }

  /** The alert loop: every new notice scoring at least 20 is formatted and
      sent, and `sent` counts the sends the API accepted. */
  method NotifyAll(newBids: seq<BidNotice>, send: Sender, token: string, chatId: string)
    returns (sent: nat, outbox: seq<Outgoing>)
    ensures sent == SentCount(newBids, send, token, chatId)
    ensures outbox == Alerts(newBids)
  {
    sent := 0;
    outbox := [];
    var j := 0;
    while j < |newBids|
      invariant 0 <= j <= |newBids|
      invariant sent == SentCount(newBids[..j], send, token, chatId)
      invariant outbox == Alerts(newBids[..j])
    {
      assert newBids[..j + 1][..j] == newBids[..j];
      var bid := newBids[j];
      if bid.score >= ScoreThreshold {
        var msg := Alert(FormatBidMessage(bid));
        outbox := outbox + [msg];
        if send(token, chatId, msg) {
          sent := sent + 1;
        }
      }
      j := j + 1;
    }
    assert newBids[..|newBids|] == newBids;
  }

  /** What `check_and_notify` does once the collector has run: the rows of
      `rows` whose id is not in `existingIds` are the new bids, every
      high-scoring one is alerted on, and a summary follows when there is at
      least one new bid. */
  method NotifyNew(rows: seq<BidNotice>, existingIds: set<nat>, send: Sender, token: string, chatId: string, now: Timestamp)
    returns (newBids: seq<BidNotice>, sent: nat, outbox: seq<Outgoing>)
    ensures newBids == NewBids(existingIds, rows)
    ensures sent == SentCount(newBids, send, token, chatId)
    ensures outbox == Outbox(newBids, send, token, chatId, now)
  {
    newBids := SelectNew(rows, existingIds);
    sent, outbox := NotifyAll(newBids, send, token, chatId);
    if newBids != [] {
      var summary := Summary(|newBids|, sent, now);
      outbox := outbox + [summary];
      var _ := send(token, chatId, summary);
    }
  }

  /** `check_and_notify()`. The collector is run on the same database; its
      service-key check is the one `check_and_notify` has already passed. */
  method CheckAndNotify(db: Database, settings: Settings, env: Env, fetch: PageOracle, send: Sender, now: Timestamp)
    returns (report: Report, outbox: seq<Outgoing>)
    requires db.Valid()
    modifies db
    ensures db.Valid()
    ensures env.telegramToken == "" || env.telegramChatId == "" ==>
      report == ConfigError("텔레그램 설정 없음") && outbox == []
      && db.notices == old(db.notices) && db.syncLogs == old(db.syncLogs)
    ensures env.telegramToken != "" && env.telegramChatId != "" && !HasDataGoKr(env) ==>
      report == ConfigError("API 키 없음") && outbox == []
      && db.notices == old(db.notices) && db.syncLogs == old(db.syncLogs)
    ensures env.telegramToken != "" && env.telegramChatId != "" && HasDataGoKr(env) ==>
      var gathered := FetchAll(fetch, BaseUrlOf(settings), EndpointsOf(settings));
      var added := NewBids(IdsOf(old(db.notices)), db.notices);
      && db.notices == SaveAll(old(db.notices), gathered.0, PolicyOf(settings), now)
      && |old(db.notices)| <= |db.notices| && added == db.notices[|old(db.notices)|..]
      && report == Done(|added|, |added|, SentCount(added, send, env.telegramToken, env.telegramChatId))
      && outbox == Outbox(added, send, env.telegramToken, env.telegramChatId, now)
  {
    var token := env.telegramToken;
    var chatId := env.telegramChatId;
    if token == "" || chatId == "" {
      return ConfigError("텔레그램 설정 없음"), [];
    }
    if !HasDataGoKr(env) {
      return ConfigError("API 키 없음"), [];
    }
    var existingIds := IdsOf(db.notices);
    ghost var rowsBefore := db.notices;
    ghost var gathered := FetchAll(fetch, BaseUrlOf(settings), EndpointsOf(settings));
    var result := Collect(db, settings, env, fetch, now);
    assert db.notices == SaveAll(rowsBefore, gathered.0, PolicyOf(settings), now);
    NewBidsAfterSave(rowsBefore, gathered.0, PolicyOf(settings), now);
    var newBids, sent;
    newBids, sent, outbox := NotifyNew(db.notices, existingIds, send, token, chatId, now);
    report := Done(result.inserted, |newBids|, sent);
    assert newBids == db.notices[|rowsBefore|..];
    assert |newBids| == result.inserted;
  }
}

=== FILE: collector.dfy ===
/** `NaraBidsCollector`: the duplicate-checked insertion of accepted records
    (`_score_and_save`) and the run over every configured endpoint
    (`collect`). */
module Collector {
  import opened Wrappers
  import opened Json
  import opened Text
  import opened Config
  import opened Schema
  import opened Base
  import opened Fetch
  import opened Scoring

  /** `NaraBidsCollector.source_name`. */
  const SourceName: string := "nara_bids"

  const DefaultBaseUrl: string := "https://apis.data.go.kr/1230000/ad/BidPublicInfoService"

  const DefaultEndpoints: seq<Endpoint> := [
    Endpoint("construction", "/getBidPblancListInfoCnstwk"),
    Endpoint("service", "/getBidPblancListInfoServc"),
    Endpoint("goods", "/getBidPblancListInfoThng")
  ]

  /** The natural key a record is stored and looked up under. The endpoint and
      notice number keep the text form the TEXT columns give them; the notice
      order defaults to "00". */
  function KeyOf(item: Item): (k: BidKey)
    ensures EndpointKey in item && item[EndpointKey].Str? ==> k.endpoint == item[EndpointKey].s
    ensures EndpointKey !in item ==> k.endpoint == ""
    ensures "bidNtceNo" in item && item["bidNtceNo"].Str? ==> k.bidNtceNo == item["bidNtceNo"].s
    ensures Truthy(Get(item, "bidNtceNo", Str(""))) ==> k.bidNtceNo != ""
    ensures "bidNtceOrd" in item && item["bidNtceOrd"].Str? ==> k.bidNtceOrd == item["bidNtceOrd"].s
    ensures "bidNtceOrd" !in item ==> k.bidNtceOrd == "00"
  {
    BidKey(Display(Get(item, "endpoint", Str(""))),
           Display(Get(item, "bidNtceNo", Str(""))),
           FieldStr(item, "bidNtceOrd", "00"))
  }

  /** For records whose endpoint, notice number and notice order are strings,
      two records share a key exactly when they agree on all three: the
      duplicate check tells apart notices that differ in any of them. */
  lemma KeyOfSeparates(a: Item, b: Item)
    requires EndpointKey in a && a[EndpointKey].Str? && EndpointKey in b && b[EndpointKey].Str?
    requires "bidNtceNo" in a && a["bidNtceNo"].Str? && "bidNtceNo" in b && b["bidNtceNo"].Str?
    requires "bidNtceOrd" in a && a["bidNtceOrd"].Str? && "bidNtceOrd" in b && b["bidNtceOrd"].Str?
    ensures KeyOf(a) == KeyOf(b) <==>
      && a[EndpointKey] == b[EndpointKey]
      && a["bidNtceNo"] == b["bidNtceNo"]
      && a["bidNtceOrd"] == b["bidNtceOrd"]
  {
  }

  /** The row built for an accepted record. */
  function MakeNotice(id: nat, item: Item, score: int, matched: multiset<string>, now: Timestamp): (n: BidNotice)
    ensures n.Key() == KeyOf(item)
  {
    BidNotice(
      id := id,
      endpoint := Display(Get(item, "endpoint", Str(""))),
      bidNtceNo := Display(Get(item, "bidNtceNo", Str(""))),
      bidNtceOrd := FieldStr(item, "bidNtceOrd", "00"),
      title := FieldText(item, "bidNtceNm"),
      org := FieldText(item, "ntceInsttNm"),
      demandOrg := FieldText(item, "dminsttNm"),
      budget := StoredFloat(SafeFloat(if "presmptPrce" in item then Some(item["presmptPrce"]) else None)),
      bidBeginDt := FieldStr(item, "bidBeginDt", ""),
      bidCloseDt := FieldStr(item, "bidClseDt", ""),
      url := FieldStr(item, "bidNtceDtlUrl", ""),
      contactName := FieldText(item, "ntceInsttOfclNm"),
      contactPhone := FieldText(item, "ntceInsttOfclTelNo"),
      contactEmail := FieldText(item, "ntceInsttOfclEmailAdrs"),
      score := StoredScore(score),
      matchedKeywords := matched,
      rawData := item,
      createdAt := now)
  }

  /** The table after one record has gone through scoring and the duplicate
      check. */
  function SaveOne(rows: seq<BidNotice>, item: Item, p: Policy, now: Timestamp): (r: seq<BidNotice>)
    ensures |rows| <= |r| <= |rows| + 1 && r[..|rows|] == rows
    ensures |r| == |rows| + 1 <==> Evaluate(item, p).Accepted? && !HasKey(rows, KeyOf(item))
  {
    match Evaluate(item, p)
    case Rejected(_) => rows
    case Accepted(score, matched) =>
      if HasKey(rows, KeyOf(item)) then rows
      else rows + [MakeNotice(NextId(NoticeIds(rows)), item, score, matched, now)]
  }

  /** The table after `_score_and_save(bids)`: the records processed in order,
      each seeing the rows the earlier ones added. */
  function SaveAll(rows: seq<BidNotice>, bids: seq<Item>, p: Policy, now: Timestamp): (r: seq<BidNotice>)
    ensures |rows| <= |r| <= |rows| + |bids|
    decreases |bids|
  {
    if bids == [] then rows
    else SaveOne(SaveAll(rows, bids[..|bids| - 1], p, now), bids[|bids| - 1], p, now)
  }

  /** The text a stored row was matched on. */
  function RowText(r: BidNotice): string {
    Lower(r.title + " " + r.org + " " + r.demandOrg)
  }

  /** Everything a stored row promises about the record it came from: no
      exclude keyword, a region, a high-intent keyword, a notice number, the
      clamped score and the matched keywords. */
  predicate Qualifies(r: BidNotice, p: Policy) {
    var text := RowText(r);
    && text == RecordText(r.rawData)
    && !ExcludeHit(p, text)
    && RegionHit(p, text)
    && Hits(p.high, text) != {}
    && r.bidNtceNo != ""
    && r.score == StoredScore(RawScore(p, text))
    && r.matchedKeywords == Matched(p, text)
  }

  lemma MakeNoticeQualifies(id: nat, item: Item, p: Policy, now: Timestamp)
    requires Evaluate(item, p).Accepted?
    ensures var v := Evaluate(item, p);
      Qualifies(MakeNotice(id, item, v.score, v.matched, now), p)
  {
    var v := Evaluate(item, p);
    var n := MakeNotice(id, item, v.score, v.matched, now);
    assert RowText(n) == RecordText(item);
    TruthyDisplayNonEmpty(Get(item, "bidNtceNo", Str("")));
  }

  /** `_score_and_save` only appends: the rows already there stay as they
      were, and at most one row is added per record. */
  lemma {:induction false} SaveAllExtends(rows: seq<BidNotice>, bids: seq<Item>, p: Policy, now: Timestamp)
    ensures var r := SaveAll(rows, bids, p, now);
      |rows| <= |r| <= |rows| + |bids| && r[..|rows|] == rows
    decreases |bids|
  {
    if bids != [] {
      SaveAllExtends(rows, bids[..|bids| - 1], p, now);
    }
  }

  /** Both constraints of `bid_notices` survive `_score_and_save`. */
  lemma {:induction false} SaveAllKeepsConstraints(rows: seq<BidNotice>, bids: seq<Item>, p: Policy, now: Timestamp)
    requires KeysUnique(rows) && IdsUnique(rows)
    ensures var r := SaveAll(rows, bids, p, now);
      KeysUnique(r) && IdsUnique(r)
    decreases |bids|
  {
    if bids != [] {
      var init := bids[..|bids| - 1];
      var item := bids[|bids| - 1];
      SaveAllKeepsConstraints(rows, init, p, now);
      var mid := SaveAll(rows, init, p, now);
      var v := Evaluate(item, p);
      if v.Accepted? && !HasKey(mid, KeyOf(item)) {
        var n := MakeNotice(NextId(NoticeIds(mid)), item, v.score, v.matched, now);
        AppendNoticeKeepsConstraints(mid, n);
        assert n.(id := NextId(NoticeIds(mid))) == n;
      }
    }
  }

  /** Every row `_score_and_save` appends came from the batch and qualifies. */
  lemma {:induction false} SaveAllQualifies(rows: seq<BidNotice>, bids: seq<Item>, p: Policy, now: Timestamp)
    ensures var r := SaveAll(rows, bids, p, now);
      forall i :: |rows| <= i < |r| ==> Qualifies(r[i], p) && r[i].rawData in bids
    decreases |bids|
  {
    if bids != [] {
      var init := bids[..|bids| - 1];
      var item := bids[|bids| - 1];
      SaveAllQualifies(rows, init, p, now);
      SaveAllExtends(rows, init, p, now);
      var mid := SaveAll(rows, init, p, now);
      var r := SaveAll(rows, bids, p, now);
      var v := Evaluate(item, p);
      if v.Accepted? && !HasKey(mid, KeyOf(item)) {
        MakeNoticeQualifies(NextId(NoticeIds(mid)), item, p, now);
      }
      forall i | |rows| <= i < |r| ensures Qualifies(r[i], p) && r[i].rawData in bids {
        if i < |mid| {
          assert r[i] == mid[i];
          assert mid[i].rawData in init;
        }
      }
    }
  }

  /** A key present before `_score_and_save` is present after it. */
  lemma {:induction false} SaveAllKeepsKeys(rows: seq<BidNotice>, bids: seq<Item>, p: Policy, now: Timestamp, key: BidKey)
    requires HasKey(rows, key)
    ensures HasKey(SaveAll(rows, bids, p, now), key)
    decreases |bids|
  {
    if bids != [] {
      SaveAllKeepsKeys(rows, bids[..|bids| - 1], p, now, key);
      var mid := SaveAll(rows, bids[..|bids| - 1], p, now);
      var k :| 0 <= k < |mid| && mid[k].Key() == key;
      var r := SaveAll(rows, bids, p, now);
      assert r[k] == mid[k];
    }
  }

  /** After `_score_and_save`, the key of every accepted record of the batch
      is in the table: inserted by this call or already there. */
  lemma {:induction false} SaveAllCoversAccepted(rows: seq<BidNotice>, bids: seq<Item>, p: Policy, now: Timestamp)
    ensures forall b :: b in bids && Evaluate(b, p).Accepted? ==> HasKey(SaveAll(rows, bids, p, now), KeyOf(b))
    decreases |bids|
  {
    if bids != [] {
      var init := bids[..|bids| - 1];
      var item := bids[|bids| - 1];
      SaveAllCoversAccepted(rows, init, p, now);
      var mid := SaveAll(rows, init, p, now);
      assert SaveAll(rows, bids, p, now) == SaveOne(mid, item, p, now);
      SaveOneCovers(mid, item, p, now);
      forall b | b in bids && Evaluate(b, p).Accepted? ensures HasKey(SaveOne(mid, item, p, now), KeyOf(b)) {
        if b != item {
          assert b in init;
        }
      }
    }
  }

  /** Saving one record keeps every stored key and stores the record's key
      when it is accepted. */
  lemma SaveOneCovers(rows: seq<BidNotice>, item: Item, p: Policy, now: Timestamp)
    ensures forall k :: HasKey(rows, k) ==> HasKey(SaveOne(rows, item, p, now), k)
    ensures Evaluate(item, p).Accepted? ==> HasKey(SaveOne(rows, item, p, now), KeyOf(item))
  {
    var r := SaveOne(rows, item, p, now);
    forall k | HasKey(rows, k) ensures HasKey(r, k) {
      var j :| 0 <= j < |rows| && rows[j].Key() == k;
      assert r[j] == rows[j];
    }
    if Evaluate(item, p).Accepted? && !HasKey(rows, KeyOf(item)) {
      assert r[|rows|].Key() == KeyOf(item);
    }
  }

  /** When every accepted record's key is already stored, `_score_and_save`
      stores nothing. */
  lemma {:induction false} SaveAllNoNewKeys(rows: seq<BidNotice>, bids: seq<Item>, p: Policy, now: Timestamp)
    requires forall b :: b in bids && Evaluate(b, p).Accepted? ==> HasKey(rows, KeyOf(b))
    ensures SaveAll(rows, bids, p, now) == rows
    decreases |bids|
  {
    if bids != [] {
      SaveAllNoNewKeys(rows, bids[..|bids| - 1], p, now);
    }
  }

  /** Running `_score_and_save` a second time on the same records adds no
      row, whatever the clock says. */
  lemma SaveAllIdempotent(rows: seq<BidNotice>, bids: seq<Item>, p: Policy, now: Timestamp, later: Timestamp)
    ensures var once := SaveAll(rows, bids, p, now);
      SaveAll(once, bids, p, later) == once
  {
    SaveAllCoversAccepted(rows, bids, p, now);
    SaveAllNoNewKeys(SaveAll(rows, bids, p, now), bids, p, later);
  }

  /** A record rejected by the exclude veto never reaches the table, whatever
      its score would have been. */
  lemma ExcludedNeverStored(rows: seq<BidNotice>, bids: seq<Item>, p: Policy, now: Timestamp)
    ensures var r := SaveAll(rows, bids, p, now);
      forall i :: |rows| <= i < |r| ==> !ExcludeHit(p, RecordText(r[i].rawData))
  {
    SaveAllQualifies(rows, bids, p, now);
  }

  /** Two records with the same key in one batch, as overlapping pages
      produce, give at most one row; exactly one when the first is accepted
      and its key is new. */
  lemma DuplicateInBatchStoredOnce(rows: seq<BidNotice>, b1: Item, b2: Item, p: Policy, now: Timestamp)
    requires KeyOf(b1) == KeyOf(b2)
    ensures |rows| <= |SaveAll(rows, [b1, b2], p, now)| <= |rows| + 1
    ensures Evaluate(b1, p).Accepted? && !HasKey(rows, KeyOf(b1)) ==>
      |SaveAll(rows, [b1, b2], p, now)| == |rows| + 1
  {
    assert [b1, b2][..1] == [b1];
    assert [b1][..0] == [];
    assert SaveAll(rows, [], p, now) == rows;
    var mid := SaveAll(rows, [b1], p, now);
    assert mid == SaveOne(rows, b1, p, now);
    assert SaveAll(rows, [b1, b2], p, now) == SaveOne(mid, b2, p, now);
    if |mid| == |rows| + 1 {
      assert mid[|rows|].Key() == KeyOf(b2);
      assert HasKey(mid, KeyOf(b2));
    }
  }

  /** One pass of the `for bid in bids` loop of `_score_and_save`: the record
      is scored and, when accepted and its key is not yet stored, inserted.
      `saved` tells whether a row was added. */
  method SaveRecord(db: Database, bid: Item, p: Policy, now: Timestamp) returns (saved: bool)
    requires db.Valid()
    modifies db
    ensures db.Valid()
    ensures db.notices == SaveOne(old(db.notices), bid, p, now)
    ensures saved == (|db.notices| == |old(db.notices)| + 1)
    ensures saved || db.notices == old(db.notices)
    ensures db.syncLogs == old(db.syncLogs)
  {
    saved := false;
    var verdict := ScoreRecord(bid, p);
    if verdict.Accepted? {
      var existing := HasKey(db.notices, KeyOf(bid));
      if !existing {
        ghost var before := db.notices;
        var notice := MakeNotice(0, bid, verdict.score, verdict.matched, now);
        var ok := db.AddNotice(notice);
        assert notice.(id := NextId(NoticeIds(before))) == MakeNotice(NextId(NoticeIds(before)), bid, verdict.score, verdict.matched, now);
        saved := true;
      }
    }
  }

  /** One record more: the table after the first `i + 1` records is the
      table after the first `i` with record `i` saved. */
  lemma SaveAllStep(rows: seq<BidNotice>, bids: seq<Item>, i: nat, p: Policy, now: Timestamp)
    requires i < |bids|
    ensures SaveAll(rows, bids[..i + 1], p, now) == SaveOne(SaveAll(rows, bids[..i], p, now), bids[i], p, now)
  {
    assert bids[..i + 1][..i] == bids[..i];
  }

  /** `_score_and_save(bids)`: returns the number of rows it added. */
  method ScoreAndSave(db: Database, settings: Settings, bids: seq<Item>, now: Timestamp) returns (savedCount: nat)
    requires db.Valid()
    modifies db
    ensures db.Valid()
    ensures db.notices == SaveAll(old(db.notices), bids, PolicyOf(settings), now)
    ensures savedCount == |db.notices| - |old(db.notices)|
    ensures db.syncLogs == old(db.syncLogs)
  {
    var p := PolicyOf(settings);
    savedCount := 0;
    var i := 0;
    while i < |bids|
      invariant 0 <= i <= |bids|
      invariant db.Valid()
      invariant db.notices == SaveAll(old(db.notices), bids[..i], p, now)
      invariant savedCount == |db.notices| - |old(db.notices)|
      invariant db.syncLogs == old(db.syncLogs)
    {
      SaveAllStep(old(db.notices), bids, i, p, now);
      var saved := SaveRecord(db, bids[i], p, now);
      if saved {
        savedCount := savedCount + 1;
      }
      i := i + 1;
    }
    assert bids[..|bids|] == bids;
  }

  /** The base URL of the `nara` API section, or the built-in one. */
  function BaseUrlOf(s: Settings): (url: string)
    ensures "nara" in s.api && s.api["nara"].baseUrl.Some? ==> url == s.api["nara"].baseUrl.value
    ensures ("nara" !in s.api || s.api["nara"].baseUrl.None?) ==> url == DefaultBaseUrl
  {
    GetApi(s, "nara").baseUrl.GetOr(DefaultBaseUrl)
  }

  /** The endpoints of the `nara` API section, or the three built-in ones. */
  function EndpointsOf(s: Settings): (eps: seq<Endpoint>)
    ensures "nara" in s.api && s.api["nara"].endpoints.Some? ==> eps == s.api["nara"].endpoints.value
    ensures ("nara" !in s.api || s.api["nara"].endpoints.None?) ==> eps == DefaultEndpoints && |eps| == 3
  {
    GetApi(s, "nara").endpoints.GetOr(DefaultEndpoints)
  }

  /** The records gathered from `eps` in order, and the number of endpoints
      whose fetch raised (those contribute nothing). */
  function FetchAll(fetch: PageOracle, baseUrl: string, eps: seq<Endpoint>): (r: (seq<Item>, nat))
    ensures r.1 <= |eps|
    decreases |eps|
  {
    if eps == [] then ([], 0)
    else
      var (bids, errors) := FetchAll(fetch, baseUrl, eps[..|eps| - 1]);
      var ep := eps[|eps| - 1];
      match FetchFrom(fetch, baseUrl + ep.path, ep.name, 1)
      case Success(records) => (bids + records, errors)
      case Failure(_) => (bids, errors + 1)
  }

  /** The error tally counts endpoints: it never exceeds their number and is
      zero exactly when every endpoint's fetch returned. */
  lemma {:induction false} FetchAllErrors(fetch: PageOracle, baseUrl: string, eps: seq<Endpoint>)
    ensures var (_, errors) := FetchAll(fetch, baseUrl, eps);
      && errors <= |eps|
      && (errors == 0 <==> forall i :: 0 <= i < |eps| ==> FetchFrom(fetch, baseUrl + eps[i].path, eps[i].name, 1).Success?)
    decreases |eps|
  {
    if eps != [] {
      var init := eps[..|eps| - 1];
      FetchAllErrors(fetch, baseUrl, init);
      var errors := FetchAll(fetch, baseUrl, eps).1;
      if errors == 0 {
        forall i | 0 <= i < |eps| ensures FetchFrom(fetch, baseUrl + eps[i].path, eps[i].name, 1).Success? {
          if i < |init| {
            assert eps[i] == init[i];
          }
        }
      }
    }
  }

  /** A timed-out request is not an error: when the first request of every
      endpoint fails in transport, the run gathers nothing and counts no
      error. */
  lemma {:induction false} AllTimeoutsNoErrors(fetch: PageOracle, baseUrl: string, eps: seq<Endpoint>)
    requires forall i :: 0 <= i < |eps| ==> fetch(baseUrl + eps[i].path, 1).None?
    ensures FetchAll(fetch, baseUrl, eps) == ([], 0)
    decreases |eps|
  {
    if eps != [] {
      var init := eps[..|eps| - 1];
      forall i | 0 <= i < |init| ensures fetch(baseUrl + init[i].path, 1).None? {
        assert init[i] == eps[i];
      }
      AllTimeoutsNoErrors(fetch, baseUrl, init);
      var ep := eps[|eps| - 1];
      assert FetchFrom(fetch, baseUrl + ep.path, ep.name, 1) == Success([]);
      var none: seq<Item> := [];
      assert none + none == none;
    }
  }

  /** The endpoint a gathered record names is one of `eps`. */
  predicate TaggedByOneOf(b: Item, eps: seq<Endpoint>) {
    EndpointKey in b && exists i :: 0 <= i < |eps| && b[EndpointKey] == Str(eps[i].name)
  }

  /** Every gathered record carries the name of the endpoint it came from. */
  lemma {:induction false} FetchAllTagged(fetch: PageOracle, baseUrl: string, eps: seq<Endpoint>)
    ensures forall b :: b in FetchAll(fetch, baseUrl, eps).0 ==> TaggedByOneOf(b, eps)
    decreases |eps|
  {
    if eps != [] {
      var init := eps[..|eps| - 1];
      var ep := eps[|eps| - 1];
      FetchAllTagged(fetch, baseUrl, init);
      FetchTagsEndpoint(fetch, baseUrl + ep.path, ep.name, 1);
      var r := FetchFrom(fetch, baseUrl + ep.path, ep.name, 1);
      var bids0 := FetchAll(fetch, baseUrl, init).0;
      assert FetchAll(fetch, baseUrl, eps).0 == bids0 + (if r.Success? then r.value else []);
      forall b | b in bids0 ensures TaggedByOneOf(b, eps) {
        var i :| 0 <= i < |init| && b[EndpointKey] == Str(init[i].name);
        assert eps[i] == init[i];
      }
      if r.Success? {
        forall b | b in r.value ensures TaggedByOneOf(b, eps) {
          var k :| 0 <= k < |r.value| && r.value[k] == b;
          assert b[EndpointKey] == Str(eps[|eps| - 1].name);
        }
      }
    }
  }

  /** One endpoint more: its records are appended, or one error is added when
      its fetch raised. */
  lemma FetchAllSnoc(fetch: PageOracle, baseUrl: string, eps: seq<Endpoint>, ep: Endpoint)
    ensures var (bids, errors) := FetchAll(fetch, baseUrl, eps);
      FetchAll(fetch, baseUrl, eps + [ep]) ==
        match FetchFrom(fetch, baseUrl + ep.path, ep.name, 1)
        case Success(records) => (bids + records, errors)
        case Failure(_) => (bids, errors + 1)
  {
    assert (eps + [ep])[..|eps|] == eps;
  }

  /** The `for ep in endpoints` loop of `collect`: each endpoint's records are
      appended in turn, and an endpoint whose fetch raised adds one error. */
  method FetchEndpoints(fetch: PageOracle, baseUrl: string, endpoints: seq<Endpoint>)
    returns (allBids: seq<Item>, errors: nat)
    ensures (allBids, errors) == FetchAll(fetch, baseUrl, endpoints)
  {
    allBids, errors := [], 0;
    var i := 0;
    while i < |endpoints|
      invariant 0 <= i <= |endpoints|
      invariant FetchAll(fetch, baseUrl, endpoints[..i]) == (allBids, errors)
    {
      assert endpoints[..i + 1] == endpoints[..i] + [endpoints[i]];
      FetchAllSnoc(fetch, baseUrl, endpoints[..i], endpoints[i]);
      var bids, _ := FetchEndpoint(fetch, baseUrl, endpoints[i]);
      match bids {
        case Success(records) =>
          allBids := allBids + records;
        case Failure(_) =>
          errors := errors + 1;
      }
      i := i + 1;
    }
    assert endpoints[..|endpoints|] == endpoints;
  }

  /** `NaraBidsCollector.collect()`. Without a service key it reports one
      error and touches nothing; otherwise it fetches every endpoint, tallies
      the endpoints that raised, stores the accepted new records and writes
      the sync log once. `fetch` is the page oracle, `now` the clock. */
  method Collect(db: Database, settings: Settings, env: Env, fetch: PageOracle, now: Timestamp)
    returns (result: CollectResult)
    requires db.Valid()
    modifies db
    ensures db.Valid()
    ensures !HasDataGoKr(env) ==>
      && result == CollectResult(SourceName, 0, 0, 0, 1, "API 키 없음")
      && db.notices == old(db.notices) && db.syncLogs == old(db.syncLogs)
    ensures HasDataGoKr(env) ==>
      var gathered := FetchAll(fetch, BaseUrlOf(settings), EndpointsOf(settings));
      && db.notices == SaveAll(old(db.notices), gathered.0, PolicyOf(settings), now)
      && result == CollectResult(SourceName, |gathered.0|, |db.notices| - |old(db.notices)|, 0, gathered.1)
      && db.syncLogs == UpsertLog(old(db.syncLogs), SourceName, result, now)
  {
    if !HasDataGoKr(env) {
      return CollectResult(SourceName, 0, 0, 0, 1, "API 키 없음");
    }
    var allBids, errors := FetchEndpoints(fetch, BaseUrlOf(settings), EndpointsOf(settings));
    var matched := ScoreAndSave(db, settings, allBids, now);
    result := CollectResult(SourceName, |allBids|, matched, 0, errors);
    UpdateSyncLog(db, SourceName, result, now);
  }
}

=== FILE: config.dfy ===
/** The configuration records the collector reads. Loading them from the YAML
    file and the environment is not part of this model: they arrive as plain
    values. */
module Config {
  import opened Wrappers

  /** One category endpoint of the upstream API: its logical name and path. */
  datatype Endpoint = Endpoint(name: string, path: string)

  /** The `api.nara` section of the settings: both keys optional. */
  datatype ApiConfig = ApiConfig(baseUrl: Option<string>, endpoints: Option<seq<Endpoint>>)

  /** The settings record. `keywordsExclude` is `None` when the attribute does
      not exist, which is the case for every settings object the loader builds. */
  datatype Settings = Settings(
    regions: seq<string> := ["서울", "인천", "경기"],
    keywordsHighIntent: seq<string> := [],
    keywordsFacilities: seq<string> := [],
    scoring: map<string, int> := map[],
    api: map<string, ApiConfig> := map[],
    keywordsExclude: Option<seq<string>> := None)

  /** The secrets read from the environment. */
  datatype Env = Env(
    dbPath: string := "./data/cybarrier.db",
    dataGoKrKey: string := "",
    telegramToken: string := "",
    telegramChatId: string := "")

  /** `Env.has_data_go_kr`: the service key is non-empty. */
  predicate HasDataGoKr(env: Env) {
    env.dataGoKrKey != ""
  }

  /** `settings.get_api(name)`: the named section, or an empty one. */
  function GetApi(s: Settings, name: string): ApiConfig {
    if name in s.api then s.api[name] else ApiConfig(None, None)
  }
}

=== FILE: fetch.dfy ===
/** Paginated retrieval of one category endpoint and the normalisation of the
    API's response envelope. The HTTP request and `resp.json()` are a page
    oracle: `fetch(url, page)` is the decoded body of that page, or `None` when
    the request or the decoding raised. */
module Fetch {
  import opened Wrappers
  import opened Json
  import opened Text
  import opened Config

  /** Rows requested per page (`numOfRows`). */
  const PageSize: nat := 100
  /** Hard cap on the pages requested per endpoint and run. */
  const MaxPages: nat := 10
  /** The key under which every fetched record carries its endpoint name. */
  const EndpointKey: string := "endpoint"

  /** The page oracle. */
  type PageOracle = (string, nat) -> Option<Value>

  /** The exceptions that escape `_fetch_endpoint`: the envelope is not shaped
      as `_parse_response` expects (`AttributeError`/`TypeError`), or an item is
      not a JSON object, so that `item["endpoint"] = ...` fails. */
  datatype FetchError = MalformedEnvelope | ItemNotObject

  /** `_parse_response(data)`. The items under response→body→items(→item) are
      returned as a list whatever their encoding; an absent or oddly typed
      `items` gives the empty list. The method calls on `data["response"]` and
      on `body` raise when those are not objects. A null, boolean or numeric
      document makes the membership test raise; for a list or a string the
      test is list membership or a substring test, so such a document gives
      no items unless it contains "response", when the subscript raises. */
  function ParseResponse(data: Value): (r: Result<seq<Value>, FetchError>)
    ensures data.Obj? && "response" !in data.fields ==> r == Success([])
    ensures data.Obj? && "response" in data.fields && !data.fields["response"].Obj? ==> r.Failure?
    ensures r.Failure? ==> r.error == MalformedEnvelope
    ensures (data.Null? || data.Bool? || data.Num?) ==> r.Failure?
    ensures data.Arr? ==> (r.Failure? <==> Str("response") in data.elems) && (r.Success? ==> r.value == [])
    ensures data.Str? ==> (r.Failure? <==> Contains(data.s, "response")) && (r.Success? ==> r.value == [])
  {
    match data
    case Obj(m) =>
      if "response" !in m then Success([])
      else
        (match m["response"]
        case Obj(resp) =>
          var body := if "body" in resp then resp["body"] else Obj(map[]);
          if !body.Obj? then Failure(MalformedEnvelope)
          else
            var items := if "items" in body.fields then body.fields["items"] else Arr([]);
            var unwrapped :=
              if items.Obj? then (if "item" in items.fields then items.fields["item"] else Arr([]))
              else items;
            var listed := if unwrapped.Obj? then Arr([unwrapped]) else unwrapped;
            Success(if listed.Arr? then listed.elems else [])
        case _ => Failure(MalformedEnvelope))
    case Arr(xs) => if Str("response") in xs then Failure(MalformedEnvelope) else Success([])
    case Str(s) => if Contains(s, "response") then Failure(MalformedEnvelope) else Success([])
    case _ => Failure(MalformedEnvelope)
  }

  /** A page document: the top-level object `top` (which may carry other
      keys) whose `response` is `resp` (which may carry a `header`) with its
      `body` set to `body` (which may carry `numOfRows`, `pageNo` and
      `totalCount`). */
  function Page(top: map<string, Value>, resp: map<string, Value>, body: map<string, Value>): Value {
    Obj(top["response" := Obj(resp["body" := Obj(body)])])
  }

  /** A response without `body`, or a body without `items`, holds no items,
      whatever else the envelope carries. */
  lemma ParseResponseNoItems(top: map<string, Value>, resp: map<string, Value>, body: map<string, Value>)
    ensures "body" !in resp ==> ParseResponse(Obj(top["response" := Obj(resp)])) == Success([])
    ensures "items" !in body ==> ParseResponse(Page(top, resp, body)) == Success([])
  {
  }

  /** `items` given directly: a list is returned as it is, any shape other
      than a list or an object gives no items, whatever else the envelope
      carries. */
  lemma ParseResponseBareItems(top: map<string, Value>, resp: map<string, Value>, body: map<string, Value>,
                               xs: seq<Value>, other: Value)
    requires !other.Obj? && !other.Arr?
    ensures ParseResponse(Page(top, resp, body["items" := Arr(xs)])) == Success(xs)
    ensures ParseResponse(Page(top, resp, body["items" := other])) == Success([])
  {
  }

  /** `items` as an object wrapping `item`: one object becomes a one-element
      list, a list is returned as it is, and anything else (or no `item`)
      gives no items, whatever else the envelope and the wrapper carry. */
  lemma ParseResponseWrappedItems(top: map<string, Value>, resp: map<string, Value>, body: map<string, Value>,
                                  wrapper: map<string, Value>, item: map<string, Value>, xs: seq<Value>, other: Value)
    requires !other.Obj? && !other.Arr?
    ensures ParseResponse(Page(top, resp, body["items" := Obj(wrapper["item" := Obj(item)])])) == Success([Obj(item)])
    ensures ParseResponse(Page(top, resp, body["items" := Obj(wrapper["item" := Arr(xs)])])) == Success(xs)
    ensures "item" !in wrapper ==> ParseResponse(Page(top, resp, body["items" := Obj(wrapper)])) == Success([])
    ensures ParseResponse(Page(top, resp, body["items" := Obj(wrapper["item" := other])])) == Success([])
  {
    WrappedItemsAre(top, resp, body, wrapper["item" := Obj(item)], [Obj(item)]);
    WrappedItemsAre(top, resp, body, wrapper["item" := Arr(xs)], xs);
    if "item" !in wrapper {
      WrappedItemsAre(top, resp, body, wrapper, []);
    }
    WrappedItemsAre(top, resp, body, wrapper["item" := other], []);
  }

  /** The items under a wrapper object are what its `item` unwraps to. */
  lemma WrappedItemsAre(top: map<string, Value>, resp: map<string, Value>, body: map<string, Value>,
                        wrapper: map<string, Value>, expected: seq<Value>)
    requires expected == (if "item" !in wrapper then []
                          else match wrapper["item"]
                            case Obj(_) => [wrapper["item"]]
                            case Arr(xs) => xs
                            case _ => [])
    ensures ParseResponse(Page(top, resp, body["items" := Obj(wrapper)])) == Success(expected)
  {
  }

  /** The record `item` once tagged with its endpoint name. */
  function Tag(item: Item, name: string): Item {
    item[EndpointKey := Str(name)]
  }

  /** The inner `for item in items` loop on its own: every item tagged, in
      order, or the exception raised by the first item that is not an object. */
  function TagAll(items: seq<Value>, name: string): (r: Result<seq<Item>, FetchError>)
    ensures r.Success? <==> forall i :: 0 <= i < |items| ==> items[i].Obj?
    ensures r.Success? ==> |r.value| == |items|
    ensures r.Success? ==> forall i :: 0 <= i < |items| ==> r.value[i] == Tag(items[i].fields, name)
    ensures r.Failure? ==> r.error == ItemNotObject
  {
    if items == [] then Success([])
    else
      match TagAll(items[..|items| - 1], name)
      case Failure(e) => Failure(e)
      case Success(done) =>
        match items[|items| - 1]
        case Obj(m) => Success(done + [Tag(m, name)])
        case _ => Failure(ItemNotObject)
  }

  /** Every item `TagAll` returns carries the endpoint's name. */
  lemma TagAllTags(items: seq<Value>, name: string)
    ensures var r := TagAll(items, name);
      r.Success? ==> forall i :: 0 <= i < |r.value| ==> EndpointKey in r.value[i] && r.value[i][EndpointKey] == Str(name)
  {
  }

  /** `acc` followed by the records of a later result. */
  function Prepend(acc: seq<Item>, r: Result<seq<Item>, FetchError>): Result<seq<Item>, FetchError> {
    match r
    case Success(rest) => Success(acc + rest)
    case Failure(e) => Failure(e)
  }

  /** The records `_fetch_endpoint` returns, from page `page` on: a page that
      fails to arrive, is empty or holds fewer than `PageSize` items is the
      last one requested, and no page after `MaxPages` is requested. */
  function FetchFrom(fetch: PageOracle, url: string, name: string, page: nat): (r: Result<seq<Item>, FetchError>)
    requires 1 <= page <= MaxPages + 1
    ensures r.Failure? ==> exists j :: page <= j <= MaxPages && PageRaises(fetch, url, name, j)
    decreases MaxPages + 1 - page
  {
    if page > MaxPages then Success([])
    else
      match fetch(url, page)
      case None => Success([])
      case Some(data) =>
        match ParseResponse(data)
        case Failure(e) => assert PageRaises(fetch, url, name, page); Failure(e)
        case Success(items) =>
          if items == [] then Success([])
          else
            match TagAll(items, name)
            case Failure(e) => assert PageRaises(fetch, url, name, page); Failure(e)
            case Success(tagged) =>
              if |items| < PageSize then Success(tagged)
              else Prepend(tagged, FetchFrom(fetch, url, name, page + 1))
  }

  /** Page `page` arrived, parsed and held a full page of objects: the only
      case in which the loop goes on to the next page. */
  predicate PageIsFull(fetch: PageOracle, url: string, name: string, page: nat) {
    && fetch(url, page).Some?
    && ParseResponse(fetch(url, page).value).Success?
    && |ParseResponse(fetch(url, page).value).value| >= PageSize
    && TagAll(ParseResponse(fetch(url, page).value).value, name).Success?
  }

  /** Page `page` arrived but raised while being parsed or tagged. */
  predicate PageRaises(fetch: PageOracle, url: string, name: string, page: nat) {
    && fetch(url, page).Some?
    && var parsed := ParseResponse(fetch(url, page).value);
       (parsed.Failure? || TagAll(parsed.value, name).Failure?)
  }

  /** The number of pages requested from `page` on. */
  function RequestsFrom(fetch: PageOracle, url: string, name: string, page: nat): (n: nat)
    requires 1 <= page <= MaxPages + 1
    ensures n <= MaxPages + 1 - page
    ensures forall j :: page <= j < page + n - 1 ==> PageIsFull(fetch, url, name, j)
    decreases MaxPages + 1 - page
  {
    if page > MaxPages then 0
    else if PageIsFull(fetch, url, name, page) then 1 + RequestsFrom(fetch, url, name, page + 1)
    else 1
  }

  /** The cap holds even against an upstream that keeps returning full pages:
      then every page up to `MaxPages` is requested and no more. */
  lemma {:induction false} FullPagesStopAtCap(fetch: PageOracle, url: string, name: string, page: nat)
    requires 1 <= page <= MaxPages + 1
    requires forall j :: page <= j <= MaxPages ==> PageIsFull(fetch, url, name, j)
    ensures RequestsFrom(fetch, url, name, page) == MaxPages + 1 - page
    decreases MaxPages + 1 - page
  {
    if page <= MaxPages {
      FullPagesStopAtCap(fetch, url, name, page + 1);
    }
  }

  /** What page `j` contributes once it arrived, parsed and was tagged: its
      tagged items, in order; nothing otherwise. */
  function PageRecords(fetch: PageOracle, url: string, name: string, j: nat): seq<Item> {
    match fetch(url, j)
    case None => []
    case Some(data) =>
      match ParseResponse(data)
      case Failure(_) => []
      case Success(items) =>
        match TagAll(items, name)
        case Failure(_) => []
        case Success(tagged) => tagged
  }

  /** The records of pages `from` up to (not including) `to`, page after
      page. */
  function RecordsOfPages(fetch: PageOracle, url: string, name: string, from: nat, to: nat): seq<Item>
    decreases to - from
  {
    if from >= to then [] else PageRecords(fetch, url, name, from) + RecordsOfPages(fetch, url, name, from + 1, to)
  }

  /** The page after which the loop ends when page `last` is the last one
      requested, or the cap when `last` is past it. */
  function StopAfter(last: nat): nat {
    if last <= MaxPages then last + 1 else last
  }

  /** Records come back in page order: when pages `page` to `last - 1` were
      full and page `last` ended the loop without raising (or `last` is past
      the cap), the endpoint returns the records of those pages, page after
      page, followed by those of page `last`. */
  lemma {:induction false} FetchReturnsPagesInOrder(fetch: PageOracle, url: string, name: string, page: nat, last: nat)
    requires 1 <= page <= last <= MaxPages + 1
    requires forall j :: page <= j < last ==> PageIsFull(fetch, url, name, j)
    requires last <= MaxPages ==> !PageIsFull(fetch, url, name, last) && !PageRaises(fetch, url, name, last)
    ensures FetchFrom(fetch, url, name, page) == Success(RecordsOfPages(fetch, url, name, page, StopAfter(last)))
    decreases last - page
  {
    if page == last {
      StopPageRecords(fetch, url, name, last);
    } else {
      FetchReturnsPagesInOrder(fetch, url, name, page + 1, last);
      FullPageThenRest(fetch, url, name, page, StopAfter(last));
    }
  }

  /** A full page followed by pages returning `later` returns its own
      records followed by `later`. */
  lemma FullPageThenRest(fetch: PageOracle, url: string, name: string, page: nat, stop: nat)
    requires 1 <= page <= MaxPages && page < stop && PageIsFull(fetch, url, name, page)
    requires FetchFrom(fetch, url, name, page + 1) == Success(RecordsOfPages(fetch, url, name, page + 1, stop))
    ensures FetchFrom(fetch, url, name, page) == Success(RecordsOfPages(fetch, url, name, page, stop))
  {
    var here := PageRecords(fetch, url, name, page);
    var later := RecordsOfPages(fetch, url, name, page + 1, stop);
    FullPageRecords(fetch, url, name, page);
    RecordsOfPagesCons(fetch, url, name, page, stop);
    PrependSuccess(here, FetchFrom(fetch, url, name, page + 1), later);
  }

  lemma PrependSuccess(acc: seq<Item>, r: Result<seq<Item>, FetchError>, rest: seq<Item>)
    requires r == Success(rest)
    ensures Prepend(acc, r) == Success(acc + rest)
  {
  }

  lemma RecordsOfPagesCons(fetch: PageOracle, url: string, name: string, from: nat, to: nat)
    requires from < to
    ensures RecordsOfPages(fetch, url, name, from, to)
            == PageRecords(fetch, url, name, from) + RecordsOfPages(fetch, url, name, from + 1, to)
  {
  }

  /** The page that ends the loop without raising returns its own records;
      past the cap, nothing is requested. */
  lemma StopPageRecords(fetch: PageOracle, url: string, name: string, last: nat)
    requires 1 <= last <= MaxPages + 1
    requires last <= MaxPages ==> !PageIsFull(fetch, url, name, last) && !PageRaises(fetch, url, name, last)
    ensures FetchFrom(fetch, url, name, last) == Success(RecordsOfPages(fetch, url, name, last, StopAfter(last)))
  {
    if last <= MaxPages {
      LastPageRecords(fetch, url, name, last);
      assert RecordsOfPages(fetch, url, name, last + 1, last + 1) == [];
      assert PageRecords(fetch, url, name, last) + [] == PageRecords(fetch, url, name, last);
    }
  }

  /** A full page returns its own tagged records followed by those of the
      pages after it. */
  lemma FullPageRecords(fetch: PageOracle, url: string, name: string, page: nat)
    requires 1 <= page <= MaxPages && PageIsFull(fetch, url, name, page)
    ensures FetchFrom(fetch, url, name, page)
            == Prepend(PageRecords(fetch, url, name, page), FetchFrom(fetch, url, name, page + 1))
  {
    var items := ParseResponse(fetch(url, page).value).value;
    assert PageRecords(fetch, url, name, page) == TagAll(items, name).value;
  }

  /** A page that neither continues the loop nor raises returns exactly its
      own records. */
  lemma LastPageRecords(fetch: PageOracle, url: string, name: string, page: nat)
    requires 1 <= page <= MaxPages
    requires !PageIsFull(fetch, url, name, page) && !PageRaises(fetch, url, name, page)
    ensures FetchFrom(fetch, url, name, page) == Success(PageRecords(fetch, url, name, page))
  {
  }

  /** Every record in `recs` carries the endpoint name `name`. */
  predicate AllTagged(recs: seq<Item>, name: string) {
    forall i :: 0 <= i < |recs| ==> EndpointKey in recs[i] && recs[i][EndpointKey] == Str(name)
  }

  /** The records of one page are tagged. */
  lemma PageRecordsTagged(fetch: PageOracle, url: string, name: string, page: nat)
    ensures AllTagged(PageRecords(fetch, url, name, page), name)
  {
    if fetch(url, page).Some? {
      var parsed := ParseResponse(fetch(url, page).value);
      if parsed.Success? {
        TagAllTags(parsed.value, name);
      }
    }
  }

  lemma AllTaggedConcat(a: seq<Item>, b: seq<Item>, name: string)
    requires AllTagged(a, name) && AllTagged(b, name)
    ensures AllTagged(a + b, name)
  {
    forall i | 0 <= i < |a + b| ensures EndpointKey in (a + b)[i] && (a + b)[i][EndpointKey] == Str(name) {
      if i >= |a| {
        assert (a + b)[i] == b[i - |a|];
      }
    }
  }

  /** Every record `_fetch_endpoint` returns carries the endpoint's name. */
  lemma {:induction false} FetchTagsEndpoint(fetch: PageOracle, url: string, name: string, page: nat)
    requires 1 <= page <= MaxPages + 1
    ensures var r := FetchFrom(fetch, url, name, page);
      r.Success? ==> forall i :: 0 <= i < |r.value| ==> EndpointKey in r.value[i] && r.value[i][EndpointKey] == Str(name)
    decreases MaxPages + 1 - page
  {
    if page <= MaxPages {
      PageRecordsTagged(fetch, url, name, page);
      if PageIsFull(fetch, url, name, page) {
        FetchTagsEndpoint(fetch, url, name, page + 1);
        FullPageRecords(fetch, url, name, page);
        var rest := FetchFrom(fetch, url, name, page + 1);
        if rest.Success? {
          assert AllTagged(rest.value, name);
          AllTaggedConcat(PageRecords(fetch, url, name, page), rest.value, name);
          PrependSuccess(PageRecords(fetch, url, name, page), rest, rest.value);
        }
      } else if !PageRaises(fetch, url, name, page) {
        LastPageRecords(fetch, url, name, page);
      }
    }
  }

  /** The endpoint's records are those of the pages requested, in page order:
      when every page holds at most `PageSize` items, at most
      `PageSize * MaxPages` records come back. */
  lemma {:induction false} FetchBounded(fetch: PageOracle, url: string, name: string, page: nat)
    requires 1 <= page <= MaxPages + 1
    requires forall j :: fetch(url, j).Some? && ParseResponse(fetch(url, j).value).Success?
               ==> |ParseResponse(fetch(url, j).value).value| <= PageSize
    ensures var r := FetchFrom(fetch, url, name, page);
      r.Success? ==> |r.value| <= PageSize * RequestsFrom(fetch, url, name, page)
    decreases MaxPages + 1 - page
  {
    if page <= MaxPages && PageIsFull(fetch, url, name, page) {
      FetchBounded(fetch, url, name, page + 1);
    }
  }

  /** A transport failure never surfaces: the fetch of an endpoint raises only
      when some requested page arrived and could not be parsed or tagged. */
  lemma {:induction false} FetchRaisesOnlyOnMalformedPage(fetch: PageOracle, url: string, name: string, page: nat)
    requires 1 <= page <= MaxPages + 1
    ensures FetchFrom(fetch, url, name, page).Failure? ==>
      exists j :: page <= j < page + RequestsFrom(fetch, url, name, page) && PageRaises(fetch, url, name, j)
    decreases MaxPages + 1 - page
  {
    if page <= MaxPages && PageIsFull(fetch, url, name, page) {
      FetchRaisesOnlyOnMalformedPage(fetch, url, name, page + 1);
    } else if page <= MaxPages && FetchFrom(fetch, url, name, page).Failure? {
      assert PageRaises(fetch, url, name, page);
    }
  }

  /** The `for item in items` loop: each item is tagged and appended to
      `bids`; a non-object item raises and the records gathered so far are
      lost with the exception. */
  method AppendTagged(bids: seq<Item>, items: seq<Value>, name: string) returns (r: Result<seq<Item>, FetchError>)
    ensures r == Prepend(bids, TagAll(items, name))
  {
    var acc := bids;
    var i := 0;
    while i < |items|
      invariant 0 <= i <= |items|
      invariant TagAll(items[..i], name).Success?
      invariant acc == bids + TagAll(items[..i], name).value
    {
      assert items[..i + 1][..i] == items[..i];
      match items[i] {
        case Obj(m) =>
          acc := acc + [Tag(m, name)];
        case _ =>
          return Failure(ItemNotObject);
      }
      i := i + 1;
    }
    assert items[..|items|] == items;
    return Success(acc);
  }

  /** `_fetch_endpoint(base_url, ep, ...)`. Returns the endpoint's records, or
      the exception that escaped, together with the number of pages it
      requested. */
  method FetchEndpoint(fetch: PageOracle, baseUrl: string, ep: Endpoint)
    returns (r: Result<seq<Item>, FetchError>, requests: nat)
    ensures r == FetchFrom(fetch, baseUrl + ep.path, ep.name, 1)
    ensures requests == RequestsFrom(fetch, baseUrl + ep.path, ep.name, 1)
    ensures requests <= MaxPages
  {
    var url := baseUrl + ep.path;
    var bids: seq<Item> := [];
    var page: nat := 1;
    requests := 0;
    assert Prepend(bids, FetchFrom(fetch, url, ep.name, page)) == FetchFrom(fetch, url, ep.name, 1) by {
      match FetchFrom(fetch, url, ep.name, 1)
      case Success(rest) => assert [] + rest == rest;
      case Failure(_) =>
    }
    while page <= MaxPages
      invariant 1 <= page <= MaxPages + 1
      invariant Prepend(bids, FetchFrom(fetch, url, ep.name, page)) == FetchFrom(fetch, url, ep.name, 1)
      invariant requests + RequestsFrom(fetch, url, ep.name, page) == RequestsFrom(fetch, url, ep.name, 1)
      decreases MaxPages + 1 - page
    {
      requests := requests + 1;
      assert bids + [] == bids;
      var response := fetch(url, page);
      if response.None? {
        return Success(bids), requests;
      }
      var parsed := ParseResponse(response.value);
      if parsed.Failure? {
        return Failure(parsed.error), requests;
      }
      var items := parsed.value;
      if items == [] {
        return Success(bids), requests;
      }
      var appended := AppendTagged(bids, items, ep.name);
      if appended.Failure? || |items| < PageSize {
        return appended, requests;
      }
      PrependAssoc(bids, TagAll(items, ep.name).value, FetchFrom(fetch, url, ep.name, page + 1));
      bids := appended.value;
      page := page + 1;
    }
    assert bids + [] == bids;
    return Success(bids), requests;
  }

  lemma PrependAssoc(a: seq<Item>, b: seq<Item>, r: Result<seq<Item>, FetchError>)
    ensures Prepend(a, Prepend(b, r)) == Prepend(a + b, r)
  {
    if r.Success? {
      assert a + (b + r.value) == (a + b) + r.value;
    }
  }
}

=== FILE: json.dfy ===
/** Decoded JSON values as the HTTP client hands them to the collector, and the
    few Python conversions the collector applies to them: truthiness,
    `str(v)` and `dict.get(key, default)`. */
module Json {
  import opened Wrappers

  /** A decoded JSON document. Numbers are integral; objects are finite maps
      (key order is not observable anywhere in the model). */
  datatype Value =
    | Null
    | Bool(b: bool)
    | Num(n: int)
    | Str(s: string)
    | Arr(elems: seq<Value>)
    | Obj(fields: map<string, Value>)

  /** One record of the upstream API: a JSON object. */
  type Item = map<string, Value>

  /** Python truthiness: None, False, 0, "", [] and {} are false. */
  predicate Truthy(v: Value) {
    match v
    case Null => false
    case Bool(b) => b
    case Num(n) => n != 0
    case Str(s) => s != ""
    case Arr(xs) => xs != []
    case Obj(m) => m != map[]
  }

  /** The decimal digits of a natural number. */
  function Digits(n: nat): (r: string)
    ensures |r| > 0
    ensures forall i :: 0 <= i < |r| ==> '0' <= r[i] <= '9'
    decreases n
  {
    var d := [(n % 10) as char + '0'];
    if n < 10 then d else Digits(n / 10) + d
  }

  /** The text `str(v)` gives. The repr of a list or dict is not modelled and
      stands as a fixed non-empty placeholder. */
  function Display(v: Value): string {
    match v
    case Null => "None"
    case Bool(b) => if b then "True" else "False"
    case Num(n) => if n < 0 then "-" + Digits(-n) else Digits(n)
    case Str(s) => s
    case Arr(_) => "<json>"
    case Obj(_) => "<json>"
  }

  /** A truthy value never renders as the empty string. */
  lemma TruthyDisplayNonEmpty(v: Value)
    requires Truthy(v)
    ensures Display(v) != ""
  {
  }

  /** `item.get(key, default)`. */
  function Get(item: Item, key: string, default: Value): Value {
    if key in item then item[key] else default
  }

  /** `str(item.get(key, "") or "")`: a missing or falsy field reads as "". */
  function FieldText(item: Item, key: string): (r: string)
    ensures r != "" <==> key in item && Truthy(item[key])
    ensures key in item && item[key].Str? ==> r == item[key].s
  {
    var v := Get(item, key, Str(""));
    if Truthy(v) then Display(v) else ""
  }

  /** `str(item.get(key, default))`: a present field is rendered even when it is
      falsy (a JSON null becomes "None"). */
  function FieldStr(item: Item, key: string, default: string): (r: string)
    ensures key !in item ==> r == default
    ensures key in item && item[key].Str? ==> r == item[key].s
  {
    Display(Get(item, key, Str(default)))
  }
}

=== FILE: schema.dfy ===
/** The two persistent tables, `bid_notices` and `sync_logs`, with their
    uniqueness constraints kept as the invariant of the database object. */
module Schema {
  import opened Wrappers
  import opened Json

  /** A wall-clock instant; only ever stored, never inspected. */
  datatype Timestamp = Timestamp(seconds: int)

  /** A value of a `Float` column: a finite decimal `units / 10^scale`, an
      infinity or NaN. */
  datatype FloatValue = Finite(units: int, scale: nat) | Infinity(negative: bool) | NaN

  /** The value a `Float` column holds once written: SQLite stores a NaN
      REAL as NULL, so NaN reads back as a missing value. */
  function StoredFloat(f: Option<FloatValue>): (r: Option<FloatValue>)
    ensures r.Some? <==> f.Some? && !f.value.NaN?
    ensures r.Some? ==> r == f
  {
    if f.Some? && f.value.NaN? then None else f
  }

  /** The natural key of a notice: the `uq_bid` unique constraint. */
  datatype BidKey = BidKey(endpoint: string, bidNtceNo: string, bidNtceOrd: string)

  /** A row of `bid_notices`. `matchedKeywords` and `rawData` hold the values
      the collector serialises; the `region`, `category` and `open_dt` columns,
      which nothing writes, are not modelled. */
  datatype BidNotice = BidNotice(
    id: nat,
    endpoint: string,
    bidNtceNo: string,
    bidNtceOrd: string,
    title: string,
    org: string,
    demandOrg: string,
    budget: Option<FloatValue>,
    bidBeginDt: string,
    bidCloseDt: string,
    url: string,
    contactName: string,
    contactPhone: string,
    contactEmail: string,
    score: int,
    matchedKeywords: multiset<string>,
    rawData: Item,
    createdAt: Timestamp)
  {
    function Key(): BidKey {
      BidKey(endpoint, bidNtceNo, bidNtceOrd)
    }
  }

  /** A row of `sync_logs`. */
  datatype SyncLog = SyncLog(
    id: nat,
    source: string,
    lastSync: Timestamp,
    recordsCount: int,
    status: string,
    message: string)

  /** `uq_bid`: no two notices share (endpoint, bid_ntce_no, bid_ntce_ord). */
  predicate KeysUnique(rows: seq<BidNotice>) {
    forall i, j :: 0 <= i < j < |rows| ==> rows[i].Key() != rows[j].Key()
  }

  /** `bid_notices.id` is the primary key. */
  predicate IdsUnique(rows: seq<BidNotice>) {
    forall i, j :: 0 <= i < j < |rows| ==> rows[i].id != rows[j].id
  }

  /** `sync_logs.source` is unique. */
  predicate SourcesUnique(logs: seq<SyncLog>) {
    forall i, j :: 0 <= i < j < |logs| ==> logs[i].source != logs[j].source
  }

  /** `sync_logs.id` is the primary key. */
  predicate LogIdsUnique(logs: seq<SyncLog>) {
    forall i, j :: 0 <= i < j < |logs| ==> logs[i].id != logs[j].id
  }

  /** Some notice already carries `key`. */
  predicate HasKey(rows: seq<BidNotice>, key: BidKey) {
    exists i :: 0 <= i < |rows| && rows[i].Key() == key
  }

  /** The largest of `ids`, 0 for none. */
  function MaxOf(ids: seq<nat>): (m: nat)
    ensures forall i :: 0 <= i < |ids| ==> ids[i] <= m
    ensures ids == [] ==> m == 0
    ensures ids != [] ==> m in ids
  {
    if ids == [] then 0
    else
      var rest := MaxOf(ids[..|ids| - 1]);
      if ids[|ids| - 1] > rest then ids[|ids| - 1] else rest
  }

  /** The integer primary key SQLite assigns to the next insert into a table
      whose rows carry `ids`: one more than the largest, 1 for an empty table. */
  function NextId(ids: seq<nat>): (id: nat)
    ensures forall i :: 0 <= i < |ids| ==> ids[i] < id
    ensures ids == [] ==> id == 1
  {
    MaxOf(ids) + 1
  }

  /** The primary keys of `bid_notices`, in row order. */
  function NoticeIds(rows: seq<BidNotice>): (ids: seq<nat>)
    ensures |ids| == |rows| && forall i :: 0 <= i < |rows| ==> ids[i] == rows[i].id
  {
    seq(|rows|, i requires 0 <= i < |rows| => rows[i].id)
  }

  /** The primary keys of `sync_logs`, in row order. */
  function LogIds(logs: seq<SyncLog>): (ids: seq<nat>)
    ensures |ids| == |logs| && forall i :: 0 <= i < |logs| ==> ids[i] == logs[i].id
  {
    seq(|logs|, i requires 0 <= i < |logs| => logs[i].id)
  }

  /** Appending a notice whose key is new, under the next id, keeps both
      constraints of `bid_notices`. */
  lemma AppendNoticeKeepsConstraints(rows: seq<BidNotice>, n: BidNotice)
    requires KeysUnique(rows) && IdsUnique(rows)
    requires !HasKey(rows, n.Key())
    ensures var n' := n.(id := NextId(NoticeIds(rows)));
      KeysUnique(rows + [n']) && IdsUnique(rows + [n'])
  {
    var n' := n.(id := NextId(NoticeIds(rows)));
    var rows' := rows + [n'];
    forall i, j | 0 <= i < j < |rows'| ensures rows'[i].Key() != rows'[j].Key() && rows'[i].id != rows'[j].id {
      if j == |rows| {
        assert rows'[i] == rows[i];
        assert rows'[j].Key() == n.Key();
      }
    }
  }

  /** The database: both tables, with every constraint of the schema holding. */
  class Database {
    var notices: seq<BidNotice>
    var syncLogs: seq<SyncLog>

    ghost predicate Valid()
      reads this
    {
      && KeysUnique(notices) && IdsUnique(notices)
      && SourcesUnique(syncLogs) && LogIdsUnique(syncLogs)
    }

    /** A freshly created database: both tables empty. */
    constructor ()
      ensures Valid()
      ensures notices == [] && syncLogs == []
    {
      notices := [];
      syncLogs := [];
    }

    /** `session.add(notice)` followed by a flush: the row gets the next id.
        A key that is already taken violates `uq_bid`; the storage engine
        refuses that row, reported here as `ok == false` with nothing stored
        (the collector checks the key first and never gets there). */
    method AddNotice(n: BidNotice) returns (ok: bool)
      requires Valid()
      modifies this
      ensures Valid()
      ensures ok == !HasKey(old(notices), n.Key())
      ensures notices == if ok then old(notices) + [n.(id := NextId(NoticeIds(old(notices))))] else old(notices)
      ensures syncLogs == old(syncLogs)
    {
      ok := !HasKey(notices, n.Key());
      if ok {
        AppendNoticeKeepsConstraints(notices, n);
        notices := notices + [n.(id := NextId(NoticeIds(notices)))];
      }
    }
  }
}

=== FILE: scoring.dfy ===
/** The scoring engine of `_score_and_save`: the exclude veto, the weighted
    keyword accumulation, the region gate, the high-intent gate and the
    notice-number gate, for one record. */
module Scoring {
  import opened Wrappers
  import opened Json
  import opened Text
  import opened Config

  /** The scoring policy as the collector derives it from the settings:
      keyword sets lower-cased, regions taken verbatim. */
  datatype Policy = Policy(
    high: set<string>,
    facilities: set<string>,
    exclude: set<string>,
    regions: set<string>,
    wHigh: int,
    wFacility: int,
    wRegion: int)

  /** `set(kw.lower() for kw in ks)`. */
  function LowerSet(ks: seq<string>): set<string> {
    set k | k in ks :: Lower(k)
  }

  /** The lower-cased keywords are already in lower case, so lower-casing
      them again, as matching against lower-cased text would, changes none. */
  lemma LowerSetLowered(ks: seq<string>)
    ensures forall k :: k in LowerSet(ks) ==> Lower(k) == k
  {
    forall k | k in LowerSet(ks) ensures Lower(k) == k {
      var h :| h in ks && Lower(h) == k;
      LowerIdempotent(h);
    }
  }

  /** `scoring.get(key, default)`. */
  function WeightOr(scoring: map<string, int>, key: string, default: int): int {
    if key in scoring then scoring[key] else default
  }

  /** The policy `_score_and_save` builds from the settings. */
  function PolicyOf(s: Settings): (p: Policy)
    ensures forall k :: k in p.high <==> exists h :: h in s.keywordsHighIntent && Lower(h) == k
    ensures forall k :: k in p.facilities <==> exists f :: f in s.keywordsFacilities && Lower(f) == k
    ensures s.keywordsExclude.None? ==> p.exclude == {}
    ensures s.keywordsExclude.Some? ==>
      forall k :: k in p.exclude <==> exists e :: e in s.keywordsExclude.value && Lower(e) == k
    ensures forall r :: r in p.regions <==> r in s.regions
    ensures forall k :: k in p.high + p.facilities + p.exclude ==> Lower(k) == k
    ensures "keyword_high_intent" in s.scoring ==> p.wHigh == s.scoring["keyword_high_intent"]
    ensures "keyword_high_intent" !in s.scoring ==> p.wHigh == 15
    ensures "keyword_facility" in s.scoring ==> p.wFacility == s.scoring["keyword_facility"]
    ensures "keyword_facility" !in s.scoring ==> p.wFacility == 8
    ensures "region_match" in s.scoring ==> p.wRegion == s.scoring["region_match"]
    ensures "region_match" !in s.scoring ==> p.wRegion == 10
  {
    LowerSetLowered(s.keywordsHighIntent);
    LowerSetLowered(s.keywordsFacilities);
    LowerSetLowered(s.keywordsExclude.GetOr([]));
    Policy(
      LowerSet(s.keywordsHighIntent),
      LowerSet(s.keywordsFacilities),
      (match s.keywordsExclude case None => {} case Some(ks) => LowerSet(ks)),
      (set r | r in s.regions),
      WeightOr(s.scoring, "keyword_high_intent", 15),
      WeightOr(s.scoring, "keyword_facility", 8),
      WeightOr(s.scoring, "region_match", 10))
  }

  /** The text every keyword is matched against: title, issuing organisation
      and demanding organisation, space-separated and lower-cased. */
  function RecordText(item: Item): (r: string)
    ensures r == Lower(FieldText(item, "bidNtceNm")) + " " + Lower(FieldText(item, "ntceInsttNm"))
                 + " " + Lower(FieldText(item, "dminsttNm"))
    ensures forall i :: 0 <= i < |r| ==> !IsUpper(r[i])
  {
    var title, org, demand := FieldText(item, "bidNtceNm"), FieldText(item, "ntceInsttNm"), FieldText(item, "dminsttNm");
    LowerConcat(title + " " + org + " ", demand);
    LowerConcat(title + " " + org, " ");
    LowerConcat(title + " ", org);
    LowerConcat(title, " ");
    assert Lower(" ") == " ";
    Lower(title + " " + org + " " + demand)
  }

  /** The keywords of `kws` that occur in `text`. */
  function Hits(kws: set<string>, text: string): (h: set<string>)
    ensures h <= kws
  {
    set k | k in kws && Contains(text, k)
  }

  /** Some keyword of `kws` occurs in `text` exactly when the hits are not
      empty. */
  lemma HitsNonEmpty(kws: set<string>, text: string)
    ensures Hits(kws, text) != {} <==> exists k :: k in kws && Contains(text, k)
  {
    if exists k :: k in kws && Contains(text, k) {
      var k :| k in kws && Contains(text, k);
      assert k in Hits(kws, text);
    }
  }

  /** `any(ex in text for ex in exclude_keywords)`: some exclude keyword
      occurs in the text. Without exclude keywords nothing is excluded; an
      empty exclude keyword excludes every record. */
  predicate ExcludeHit(p: Policy, text: string): (b: bool)
    ensures b <==> Hits(p.exclude, text) != {}
    ensures p.exclude == {} ==> !b
    ensures "" in p.exclude ==> b
  {
    EmptyPatternOccurs(text);
    HitsNonEmpty(p.exclude, text);
    exists ex :: ex in p.exclude && Contains(text, ex)
  }

  /** `is_capital`: some region string occurs in the text. Without regions no
      record passes; an empty region string lets every record pass. */
  predicate RegionHit(p: Policy, text: string): (b: bool)
    ensures b <==> Hits(p.regions, text) != {}
    ensures p.regions == {} ==> !b
    ensures "" in p.regions ==> b
  {
    EmptyPatternOccurs(text);
    HitsNonEmpty(p.regions, text);
    exists r :: r in p.regions && Contains(text, r)
  }

  /** The accumulated score before clamping: one high-intent weight per
      high-intent keyword found, one facility weight per facility keyword
      found, and the region weight when the region gate holds. */
  function RawScore(p: Policy, text: string): (score: int)
    ensures p.wHigh >= 0 && p.wFacility >= 0 && p.wRegion >= 0 ==> score >= 0
    ensures p.wHigh >= 0 && p.wFacility >= 0 && p.wRegion >= 0 && Hits(p.high, text) != {} ==> score >= p.wHigh
    ensures p.wHigh >= 0 && p.wFacility >= 0 && p.wRegion >= 0 && RegionHit(p, text) ==> score >= p.wRegion
  {
    var h, f := |Hits(p.high, text)|, |Hits(p.facilities, text)|;
    WeightTimesCount(p.wHigh, h);
    WeightTimesCount(p.wFacility, f);
    p.wHigh * h + p.wFacility * f + (if RegionHit(p, text) then p.wRegion else 0)
  }

  /** A non-negative weight times a count is non-negative, and at least the
      weight once the count is positive. */
  lemma {:induction false} WeightTimesCount(w: int, n: nat)
    ensures w >= 0 ==> 0 <= w * n && (n >= 1 ==> w <= w * n)
  {
    if n > 0 {
      WeightTimesCount(w, n - 1);
      assert w * n == w * (n - 1) + w;
    }
  }

  /** The matched keywords, with a keyword of both classes counted twice. */
  function Matched(p: Policy, text: string): (m: multiset<string>)
    ensures forall k :: k in m <==> (k in p.high || k in p.facilities) && Contains(text, k)
    ensures forall k :: m[k] <= 2
  {
    multiset(Hits(p.high, text)) + multiset(Hits(p.facilities, text))
  }

  /** Why a record was not accepted, in the order the checks run. */
  datatype Rejection = Excluded | OutsideRegion | NoHighIntent | NoNoticeNumber

  datatype Verdict = Rejected(reason: Rejection) | Accepted(score: int, matched: multiset<string>)

  /** `has_high_intent`, asked of the matched list as the code asks it, is the
      same as some high-intent keyword occurring in the text. */
  lemma HasHighIntentIffHit(p: Policy, text: string)
    ensures (exists kw :: kw in p.high && kw in Matched(p, text)) <==> Hits(p.high, text) != {}
  {
    if Hits(p.high, text) != {} {
      var kw :| kw in Hits(p.high, text);
      assert kw in Matched(p, text);
    }
  }

  /** The decision `_score_and_save` reaches for one record. The exclude veto
      wins over everything; an accepted record has a region match, a
      high-intent keyword and a truthy notice number. */
  function Evaluate(item: Item, p: Policy): (v: Verdict)
    ensures ExcludeHit(p, RecordText(item)) ==> v == Rejected(Excluded)
    ensures v.Accepted? <==>
      && !ExcludeHit(p, RecordText(item))
      && RegionHit(p, RecordText(item))
      && Hits(p.high, RecordText(item)) != {}
      && Truthy(Get(item, "bidNtceNo", Str("")))
    ensures v.Accepted? ==> v.score == RawScore(p, RecordText(item)) && v.matched == Matched(p, RecordText(item))
  {
    var text := RecordText(item);
    HasHighIntentIffHit(p, text);
    if ExcludeHit(p, text) then Rejected(Excluded)
    else if !RegionHit(p, text) then Rejected(OutsideRegion)
    else if !(exists kw :: kw in p.high && kw in Matched(p, text)) then Rejected(NoHighIntent)
    else if !Truthy(Get(item, "bidNtceNo", Str(""))) then Rejected(NoNoticeNumber)
    else Accepted(RawScore(p, text), Matched(p, text))
  }

  /** The score a row stores: `min(score, 100)`. Only the upper end is
      clamped; with non-negative weights the stored score is in [0, 100]. */
  function StoredScore(raw: int): (s: int)
    ensures s <= 100 && s <= raw
    ensures raw < 100 ==> s == raw
    ensures raw >= 100 ==> s == 100
  {
    if raw < 100 then raw else 100
  }

  lemma StoredScoreInRange(p: Policy, text: string)
    requires p.wHigh >= 0 && p.wFacility >= 0 && p.wRegion >= 0
    ensures 0 <= StoredScore(RawScore(p, text)) <= 100
  {
    assert p.wHigh * |Hits(p.high, text)| >= 0;
    assert p.wFacility * |Hits(p.facilities, text)| >= 0;
  }

  /** A negative weight can push the stored score below 0. */
  lemma NegativeWeightGivesNegativeScore(text: string)
    requires Contains(text, "x")
    ensures var p := Policy({"x"}, {}, {}, {}, -5, 0, 0);
      StoredScore(RawScore(p, text)) == -5
  {
    var p := Policy({"x"}, {}, {}, {}, -5, 0, 0);
    assert Hits(p.high, text) == {"x"};
    assert Hits(p.facilities, text) == {};
  }

  /** Adding one more keyword to the keywords already examined adds it to the
      hits exactly when it occurs in the text, and then adds one to their
      count. */
  lemma HitsStep(done: set<string>, kw: string, text: string)
    requires kw !in done
    ensures kw !in Hits(done, text)
    ensures Hits(done + {kw}, text) == Hits(done, text) + (if Contains(text, kw) then {kw} else {})
    ensures |Hits(done + {kw}, text)| == |Hits(done, text)| + (if Contains(text, kw) then 1 else 0)
  {
  }

  /** One keyword more examined: the score and the matched keywords grow
      exactly when the keyword occurs in the text. */
  lemma AccumulateStep(done: set<string>, kw: string, weight: int, text: string, score0: int, matched0: multiset<string>)
    requires kw !in done
    ensures var hit := Contains(text, kw);
      && score0 + weight * |Hits(done + {kw}, text)|
         == score0 + weight * |Hits(done, text)| + (if hit then weight else 0)
      && matched0 + multiset(Hits(done + {kw}, text))
         == matched0 + multiset(Hits(done, text)) + (if hit then multiset{kw} else multiset{})
  {
    HitsStep(done, kw, text);
  }

  /** `for kw in kws: if kw in text: score += weight; matched.append(kw)`,
      visiting the set in an unspecified order. */
  method Accumulate(kws: set<string>, weight: int, text: string, score0: int, matched0: multiset<string>)
    returns (score: int, matched: multiset<string>)
    ensures score == score0 + weight * |Hits(kws, text)|
    ensures matched == matched0 + multiset(Hits(kws, text))
  {
    score, matched := score0, matched0;
    var remaining := kws;
    ghost var done: set<string> := {};
    while remaining != {}
      invariant done !! remaining && done + remaining == kws
      invariant score == score0 + weight * |Hits(done, text)|
      invariant matched == matched0 + multiset(Hits(done, text))
      decreases remaining
    {
      var kw :| kw in remaining;
      AccumulateStep(done, kw, weight, text, score0, matched0);
      if Contains(text, kw) {
        score := score + weight;
        matched := matched + multiset{kw};
      }
      done := done + {kw};
      remaining := remaining - {kw};
    }
  }

  /** The per-record body of `_score_and_save` up to the duplicate check. */
  method ScoreRecord(bid: Item, p: Policy) returns (v: Verdict)
    ensures v == Evaluate(bid, p)
  {
    var text := RecordText(bid);
    if ExcludeHit(p, text) {
      return Rejected(Excluded);
    }
    var score := 0;
    var matched: multiset<string> := multiset{};
    score, matched := Accumulate(p.high, p.wHigh, text, score, matched);
    score, matched := Accumulate(p.facilities, p.wFacility, text, score, matched);
    var isCapital := RegionHit(p, text);
    if isCapital {
      score := score + p.wRegion;
    }
    if !isCapital {
      return Rejected(OutsideRegion);
    }
    var hasHighIntent := exists kw :: kw in p.high && kw in matched;
    if !hasHighIntent {
      return Rejected(NoHighIntent);
    }
    var bidNo := Get(bid, "bidNtceNo", Str(""));
    if !Truthy(bidNo) {
      return Rejected(NoNoticeNumber);
    }
    return Accepted(score, matched);
  }

  /** Regions are matched verbatim against lower-cased text, so a region
      holding an upper-case letter never matches anything. */
  lemma UpperCaseRegionNeverMatches(p: Policy, item: Item, region: string, j: int)
    requires region in p.regions
    requires 0 <= j < |region| && IsUpper(region[j])
    ensures !Contains(RecordText(item), region)
  {
    UpperNeverInLowered(FieldText(item, "bidNtceNm") + " " + FieldText(item, "ntceInsttNm") + " " + FieldText(item, "dminsttNm"), region, j);
  }

  /** The policy of a configuration with the single high-intent keyword
      "냉동" (refrigeration), the single region "서울" (Seoul), no facility
      keywords and the default weights. */
  function ColdStoragePolicy(): (p: Policy)
    ensures p == Policy({"냉동"}, {}, {}, {"서울"}, 15, 8, 10)
  {
    var p := PolicyOf(Settings(regions := ["서울"], keywordsHighIntent := ["냉동"]));
    assert Lower("냉동") == "냉동";
    assert LowerSet(["냉동"]) == {"냉동"};
    p
  }

  /** The matching text of a record holding only a title (without upper-case
      letters) and a notice number: the title and the two separators. */
  lemma TitleOnlyText(title: string, no: Value)
    requires forall i :: 0 <= i < |title| ==> !IsUpper(title[i])
    ensures RecordText(map["bidNtceNm" := Str(title), "bidNtceNo" := no]) == title + "  "
  {
    var item := map["bidNtceNm" := Str(title), "bidNtceNo" := no];
    assert FieldText(item, "bidNtceNm") == title;
    assert FieldText(item, "ntceInsttNm") == "" && FieldText(item, "dminsttNm") == "";
    assert title + " " + "" + " " + "" == title + "  ";
  }

  /** The title "서울 냉동창고 공사" (Seoul refrigerated-warehouse works),
      written word by word. */
  const ColdStorageTitle: string := "서울" + " " + "냉동" + "창고 공사"

  /** The cold-storage title holds the region "서울" and the keyword "냉동". */
  lemma ColdStorageTitleMatches()
    ensures Contains(ColdStorageTitle + "  ", "서울") && Contains(ColdStorageTitle + "  ", "냉동")
  {
    ContainsSelf("서울");
    ContainsInConcat("서울", " ", "서울");
    ContainsInConcat("서울" + " ", "냉동", "서울");
    ContainsInConcat("서울" + " " + "냉동", "창고 공사", "서울");
    ContainsInConcat(ColdStorageTitle, "  ", "서울");
    ContainsSelf("냉동");
    ContainsInConcat("서울" + " ", "냉동", "냉동");
    ContainsInConcat("서울" + " " + "냉동", "창고 공사", "냉동");
    ContainsInConcat(ColdStorageTitle, "  ", "냉동");
  }

  /** Under the cold-storage policy a text holding "서울" and "냉동" hits the
      region, the one high-intent keyword and nothing else, for 25 points. */
  lemma ColdStorageScore(text: string)
    requires Contains(text, "서울") && Contains(text, "냉동")
    ensures var p := ColdStoragePolicy();
      && !ExcludeHit(p, text) && RegionHit(p, text)
      && Hits(p.high, text) == {"냉동"} && Hits(p.facilities, text) == {}
      && RawScore(p, text) == 25 && Matched(p, text) == multiset{"냉동"}
  {
    var p := ColdStoragePolicy();
    assert Hits(p.high, text) == {"냉동"};
    assert Hits(p.facilities, text) == {};
  }

  /** A record with the cold-storage title and a notice number is accepted
      with 15 + 10 = 25 points and the one matched keyword. */
  lemma ColdStorageAccepted()
    ensures Evaluate(map["bidNtceNm" := Str(ColdStorageTitle), "bidNtceNo" := Str("20250101")], ColdStoragePolicy())
            == Accepted(25, multiset{"냉동"})
  {
    var item := map["bidNtceNm" := Str(ColdStorageTitle), "bidNtceNo" := Str("20250101")];
    var text := ColdStorageTitle + "  ";
    assert RecordText(item) == text by {
      assert forall i :: 0 <= i < |ColdStorageTitle| ==> !IsUpper(ColdStorageTitle[i]);
      TitleOnlyText(ColdStorageTitle, Str("20250101"));
    }
    ColdStorageTitleMatches();
    ColdStorageScore(text);
    AcceptedOn(item, ColdStoragePolicy(), text);
  }

  /** A record whose text passes every gate and that has a notice number is
      accepted with the raw score and matched keywords of that text. */
  lemma AcceptedOn(item: Item, p: Policy, text: string)
    requires RecordText(item) == text
    requires !ExcludeHit(p, text) && RegionHit(p, text) && Hits(p.high, text) != {}
    requires Truthy(Get(item, "bidNtceNo", Str("")))
    ensures Evaluate(item, p) == Accepted(RawScore(p, text), Matched(p, text))
  {
  }

  /** The same record titled without any region ("부산", Busan, instead of
      Seoul) is rejected by the region gate despite its keyword match. */
  lemma OutsideRegionRejected()
    ensures Evaluate(map["bidNtceNm" := Str("부산 냉동창고 공사"), "bidNtceNo" := Str("20250101")], ColdStoragePolicy())
            == Rejected(OutsideRegion)
  {
    var item := map["bidNtceNm" := Str("부산 냉동창고 공사"), "bidNtceNo" := Str("20250101")];
    var text := "부산 냉동창고 공사" + "  ";
    assert RecordText(item) == text by {
      TitleOnlyText("부산 냉동창고 공사", Str("20250101"));
    }
    BusanTitleMissesSeoul();
    ColdStorageMissesRegion(text);
    RejectedOutsideOn(item, ColdStoragePolicy(), text);
  }

  /** The Busan title does not mention Seoul. */
  lemma BusanTitleMissesSeoul()
    ensures !Contains("부산 냉동창고 공사" + "  ", "서울")
  {
    var text := "부산 냉동창고 공사" + "  ";
    assert '서' !in text;
    AbsentCharNotContained(text, "서울", 0);
  }

  /** Under the cold-storage policy a text without "서울" has no exclude hit
      and misses the region gate. */
  lemma ColdStorageMissesRegion(text: string)
    requires !Contains(text, "서울")
    ensures !ExcludeHit(ColdStoragePolicy(), text) && !RegionHit(ColdStoragePolicy(), text)
  {
    var p := ColdStoragePolicy();
    assert p.regions == {"서울"};
  }

  /** A record whose text has no exclude hit and misses every region is
      rejected by the region gate. */
  lemma RejectedOutsideOn(item: Item, p: Policy, text: string)
    requires RecordText(item) == text
    requires !ExcludeHit(p, text) && !RegionHit(p, text)
    ensures Evaluate(item, p) == Rejected(OutsideRegion)
  {
  }
}

=== FILE: text.dfy ===
/** The string operations the scoring engine uses: `str.lower()` and the
    substring test `kw in text`. */
module Text {

  predicate IsUpper(c: char) {
    'A' <= c <= 'Z'
  }

  /** Case mapping of one character (ASCII letters only). */
  function LowerChar(c: char): (r: char)
    ensures !IsUpper(r)
    ensures !IsUpper(c) ==> r == c
  {
    if IsUpper(c) then (c as int - 'A' as int + 'a' as int) as char else c
  }

  /** `s.lower()`: every upper-case letter is replaced by its lower-case
      form, every other character is kept in place, and text that holds no
      upper-case letter comes back unchanged. */
  function Lower(s: string): (r: string)
    ensures |r| == |s|
    ensures forall i :: 0 <= i < |r| ==> !IsUpper(r[i])
    ensures forall i :: 0 <= i < |s| && !IsUpper(s[i]) ==> r[i] == s[i]
    ensures (forall i :: 0 <= i < |s| ==> !IsUpper(s[i])) ==> r == s
  {
    seq(|s|, i requires 0 <= i < |s| => LowerChar(s[i]))
  }

  /** Lower-casing works piece by piece. */
  lemma LowerConcat(a: string, b: string)
    ensures Lower(a + b) == Lower(a) + Lower(b)
  {
    var whole, parts := Lower(a + b), Lower(a) + Lower(b);
    forall i | 0 <= i < |whole| ensures whole[i] == parts[i] {
      if i < |a| {
        assert (a + b)[i] == a[i];
      } else {
        assert (a + b)[i] == b[i - |a|];
      }
    }
  }

  /** Lower-casing is idempotent. */
  lemma LowerIdempotent(s: string)
    ensures Lower(Lower(s)) == Lower(s)
  {
    var once := Lower(s);
    var twice := Lower(once);
    assert |twice| == |once|;
    forall i | 0 <= i < |once| ensures twice[i] == once[i] {
      assert once[i] == LowerChar(s[i]);
    }
  }

  /** `pat` occurs in `text` starting at position `i`. */
  predicate OccursAt(text: string, pat: string, i: int) {
    0 <= i && i + |pat| <= |text| && text[i..i + |pat|] == pat
  }

  /** Python's `pat in text`. */
  predicate Contains(text: string, pat: string) {
    exists i :: 0 <= i <= |text| - |pat| && OccursAt(text, pat, i)
  }

  /** The empty pattern occurs in every text. */
  lemma EmptyPatternOccurs(text: string)
    ensures Contains(text, "")
  {
    assert OccursAt(text, "", 0);
  }

  /** A pattern found in one part of a concatenation is found in the whole. */
  lemma ContainsInConcat(a: string, b: string, pat: string)
    requires Contains(a, pat) || Contains(b, pat)
    ensures Contains(a + b, pat)
  {
    if Contains(a, pat) {
      var i :| 0 <= i <= |a| - |pat| && OccursAt(a, pat, i);
      assert (a + b)[i..i + |pat|] == a[i..i + |pat|];
      assert OccursAt(a + b, pat, i);
    } else {
      var i :| 0 <= i <= |b| - |pat| && OccursAt(b, pat, i);
      assert (a + b)[|a| + i..|a| + i + |pat|] == b[i..i + |pat|];
      assert OccursAt(a + b, pat, |a| + i);
    }
  }

  /** Every text contains itself. */
  lemma ContainsSelf(s: string)
    ensures Contains(s, s)
  {
    assert OccursAt(s, s, 0);
  }

  /** A pattern holding a character the text lacks does not occur in it. */
  lemma {:induction false} AbsentCharNotContained(text: string, pat: string, j: int)
    requires 0 <= j < |pat| && pat[j] !in text
    ensures !Contains(text, pat)
  {
    forall i | 0 <= i <= |text| - |pat| ensures !OccursAt(text, pat, i) {
      assert text[i + j] in text;
      assert text[i..i + |pat|][j] == text[i + j];
    }
  }

  /** A lower-cased text contains no upper-case letter, so a pattern holding
      one never occurs in it. */
  lemma {:induction false} UpperNeverInLowered(s: string, pat: string, j: int)
    requires 0 <= j < |pat| && IsUpper(pat[j])
    ensures !Contains(Lower(s), pat)
  {
    var t := Lower(s);
    forall i | 0 <= i <= |t| - |pat| ensures !OccursAt(t, pat, i) {
      assert t[i..i + |pat|][j] == LowerChar(s[i + j]);
    }
  }
}

=== FILE: wrappers.dfy ===
/** Wrappers shared by the model: an optional value and a value-or-error
    result. */
module Wrappers {

  datatype Option<+T> = None | Some(value: T) {
    function GetOr(default: T): T {
      match this
      case Some(v) => v
      case None => default
    }
  }

  datatype Result<+R, +E> = Success(value: R) | Failure(error: E)
}
